=== FILE: README.md ===
# A Dafny model of the Code-Parser line interpreter

The program reads a script file one line at a time. For each line it does four things:

1. A character scanner splits the line into a name, a type, a value and a call argument, plus three flags: ':' seen, '=' seen and '(' seen.
2. A dispatcher runs the statement against three variable tables (`int`, `float` and `double`). The statement is a declaration, an assignment or a `print` call.
3. The dispatcher records at most one error code for the line.
4. After the last line, `printErrors` reports every line that recorded a code, in line order.

The command line names the file and can switch verbose mode on.

The model is split into these modules:

| module | file | what it models |
|---|---|---|
| `Text` | `text.dfy` | first occurrence and counting of a character |
| `Decimal` | `decimal.dfy` | digit strings and their values |
| `CLib` | `atoi.dfy` | the C library's `atoi`, as the GNU C library defines it |
| `Naive` | `naive.dfy` | the hand-written `naive` decoder for `double` values |
| `Scanner` | `scanner.dfy` | the character loop of `readFile` |
| `Executor` | `executor.dfy` | the statement dispatcher and the three tables of `Code_manager` |
| `Diagnostics` | `diagnostics.dfy` | `getError` and `printErrors` |
| `Reader` | `driver.dfy` | the line loop of `readFile` |
| `Args` | `args.dfy` | `arg_parser` and `main` |
| `Program` | `program.dfy` | the file-opening constructor and `std::getline` |
| `Scenarios` | `scenarios.dfy` | short scripts run end to end |

Some parts are given as parameters instead of being modelled:

- The file system is a function from a file name to the file's content, or to nothing when the file cannot be opened.
- The C library's `atof` is a function from text to a real number.
- Numbers are exact: `int` values are the 32-bit results of `atoi`, and `float` and `double` values are reals.

## Behaviour of the code worth knowing

The model follows the code in each of these cases.

- **Names.** `keywordCheck` (src/file_reader.hpp:93-100) only tests that the name is not empty. A name is not compared with `int`, `float` or `double`, so a variable may be called `int`.
- **Codes.** The only codes `readFile` records are -1, 0, 1, 2 and 3 (src/file_reader.hpp:147-214), and `getError` knows a message for each (src/file_reader.hpp:66-80). A declaration whose type is not `int`, `float` or `double` changes nothing and records nothing (`Executor.TypedDeclarationEffect`).
- **One statement per line.** The first `;` ends the scan of the line, so anything after it is ignored (`Scanner.ScanIgnoresRest`). The scan also stops at the character after the second '/' of the line, wherever the two '/' are; they need not be adjacent.
- **Redeclaration.** Declaring a name again with another type leaves the old entry in its table. Lookups search the tables in the order int, float, double, so the old entry can still win (`Scenarios.IntShadowsDouble`).
- **Present means non-zero.** `table[name]` inserts a zero entry for a missing name and is true only when the stored value is non-zero. A variable declared as zero therefore reads as undeclared (`Scenarios.ZeroIntIsUndeclared`). The inserted zero entries are modelled, and `Executor.ZerosUnobservable` proves that they never change what a later line does.
- **Code 1 notice.** Code 1 writes its `DECL_ERROR_CODE` notice even when verbose mode is off (src/file_reader.hpp:176-177). The model includes that notice in the program's output.

## Model

| member | source | states |
|---|---|---|
| Text.FirstIsFirst | src/file_reader.hpp:118-142 | the position of a character's first occurrence holds that character, and no earlier position does; the scanner's modes switch at these positions |
| Text.FirstAppend | src/file_reader.hpp:118-142 | appending a character moves the first occurrence of c only when c had not occurred and the new character is c |
| Decimal.ValueOfDigits | src/file_reader.hpp:148 | the decimal spelling of n, read digit by digit as `r*10 + d`, gives back n (the core of `atoi`'s round trip) |
| Decimal.ValueAppend | src/file_reader.hpp:18-21 | one more digit multiplies the value by ten and adds the digit |
| CLib.Atoi | src/file_reader.hpp:148 | `atoi` always yields a value in the 32-bit `int` range |
| CLib.WrapInt | src/file_reader.hpp:148 | converting to `int` gives a value in range that is congruent modulo 2^32, and leaves in-range values alone |
| CLib.AtoiShow | src/file_reader.hpp:148 | every `int`, spelled in decimal, is read back by `atoi` as itself |
| CLib.AtoiDigits | src/file_reader.hpp:162 | a digit string with an optional '-' reads as its signed value, saturated to `long` and wrapped to `int` |
| CLib.AtoiNoDigits | src/file_reader.hpp:148 | text with no digit after its white space and sign reads as 0 |
| CLib.AtoiWrapsToZero | src/file_reader.hpp:148 | "4294967296" reads as 0, so a non-zero literal can store zero |
| Naive.Walk | src/file_reader.hpp:11-37 | the walk of `naive` along the text, with its two digit loops, returns the value of the parsed numeral |
| Naive.ReadDigits | src/file_reader.hpp:18-21 | a digit loop stops at the first non-digit and accumulates the value of the digits it passed |
| Naive.Decode | src/file_reader.hpp:11-37 | the decoded value is non-negative unless the text starts with '-', and non-positive when it does |
| Naive.NumeralIffConsumed | src/file_reader.hpp:11-37 | `naive` consumes the whole text exactly when the text has the form `-?[0-9]*(\.[0-9]*)?` |
| Naive.DecodeLongestPrefix | src/file_reader.hpp:11-37 | `naive` reads the longest numeral prefix, and whatever follows it does not change the value |
| Naive.ParsePrefix | src/file_reader.hpp:11-37 | cutting the text anywhere after the consumed part changes neither what is consumed nor what is read |
| Naive.DecodeDecimal | src/file_reader.hpp:22-32 | a numeral with a fraction reads as sign, integer digits, fraction digits and fraction length |
| Naive.DecodeInteger | src/file_reader.hpp:13-21 | a numeral without a point reads as its signed integer value |
| Naive.DecodeNegation | src/file_reader.hpp:14-17 | a leading '-' negates the value of the rest, when the rest does not itself start with '-' |
| Naive.DecodeDoubleDash | src/file_reader.hpp:14-21 | "--5" reads as 0, because the second '-' stops the digit loop, so a leading '-' does not negate a rest that starts with '-' |
| Naive.DecodeNegativeExample | src/file_reader.hpp:11-37 | "-3.250" reads as -3.25 |
| Naive.DecodeStopsAtGarbage | src/file_reader.hpp:18-21 | "12x5" reads as 12: decoding stops at the first character that is not a digit |
| Naive.DecodePlusIsZero | src/file_reader.hpp:14-18 | "+5" and "" read as 0: only '-' is taken as a sign |
| Scanner.Fold | src/file_reader.hpp:117-143 | the loop's buffers only ever hold ordinary characters, and a buffer whose mode was never entered stays empty |
| Scanner.Scan | src/file_reader.hpp:116-144 | the fragment of a line has no special character in any buffer, and an empty line gives the blank fragment |
| Scanner.Halt | src/file_reader.hpp:118-119 | scanning stops at the first ';', or at the first character preceded by two '/', or at the end of the line |
| Scanner.HaltUnique | src/file_reader.hpp:118-119 | only one index has the stopping properties of `Halt` |
| Scanner.FoldPrefix | src/file_reader.hpp:117-143 | at every point the loop state is the positional description of what it has read, and after the stop it stays fixed |
| Scanner.ReferenceStep | src/file_reader.hpp:126-142 | one ordinary character goes to the value, type, argument or name buffer by the priority value > type > argument > name, and a mark only sets its flag |
| Scanner.ScanIsReference | src/file_reader.hpp:116-144 | the name buffer holds the ordinary characters before the first '(', ':' or '='; the argument buffer those after '(' and before ':' and '='; the type buffer those between ':' and '='; the value buffer all those after '=' |
| Scanner.ScanIgnoresRest | src/file_reader.hpp:118-119 | two lines that agree up to where the first stops scan alike, so text after ';' or a comment is ignored |
| Scanner.HaltAgrees | src/file_reader.hpp:118-119 | two lines that agree up to the stopping character stop at the same index |
| Scanner.KeepConcat | src/file_reader.hpp:121-122 | skipping spaces and marks distributes over concatenation |
| Scanner.ScanDeclaration | src/file_reader.hpp:116-144 | `n: t = v;` scans as name n, type t and value v, with ':' and '=' seen |
| Scanner.ScanAssignment | src/file_reader.hpp:116-144 | `n = v;` scans as name n and value v, with only '=' seen |
| Scanner.ScanCall | src/file_reader.hpp:116-144 | `n(a);` scans as name n and argument a, with only '(' seen |
| Executor.Touch | src/file_reader.hpp:161 | evaluating `table[k]` adds k with the zero value when k is missing, and changes no other entry |
| Executor.Execute | src/file_reader.hpp:145-215 | each error code is recorded exactly in the situation it names (-1 type or value text with no name and no '(', 0 a bare name with no '(', 1 an assignment to a name found nowhere without ':', 2 a call with a non-empty callee and an empty argument, 3 a print of a name found nowhere), and only `print` prints |
| Executor.TypedDeclarationEffect | src/file_reader.hpp:146-159 | a declaration of type int, float or double overwrites that table's entry with the decoded value; any other type text changes nothing |
| Executor.AssignmentEffect | src/file_reader.hpp:160-183 | an assignment updates the first table, in the order int, float, double, where the name holds a non-zero value; failing that, a ':' creates a double, and otherwise the tables stay alike |
| Executor.PrintEffect | src/file_reader.hpp:189-205 | `print` shows the value from the first table where the name is non-zero, and prints nothing exactly when it records code 3 |
| Executor.InertLines | src/file_reader.hpp:189-215 | calls other than `print`, bare names and empty lines change no table and print nothing |
| Executor.ZerosUnobservable | src/file_reader.hpp:145-215 | two stores with the same non-zero entries give the same code, the same printed value and again alike stores |
| Executor.VisibleTouch | src/file_reader.hpp:161 | the zero entry that a lookup inserts is invisible |
| Diagnostics.Message | src/file_reader.hpp:66-81 | `getError` gives the fallback message exactly for codes outside the table |
| Diagnostics.MessagesDistinct | src/file_reader.hpp:66-81 | the five codes have five different messages |
| Diagnostics.Report | src/file_reader.hpp:83-91 | every report entry describes a line of the file with its recorded code, message and text, in strictly ascending line order |
| Diagnostics.ReportComplete | src/file_reader.hpp:83-91 | every line of the file with a recorded code is reported |
| Diagnostics.ReportedIffRecorded | src/file_reader.hpp:83-91 | line i is reported exactly when a code is recorded for it, and then with that code |
| Reader.Emitted | src/file_reader.hpp:175-197 | a line writes at most one item, and it writes one exactly when it prints a value or records code 1; a notice carries the line's 1-based number, and a print writes the value it shows |
| Reader.Run | src/file_reader.hpp:111-216 | codes are recorded only for lines of the file and only from the table of codes; no more items are written than there are lines, and every notice names a line of the file |
| Reader.RunErrors | src/file_reader.hpp:111-216 | a code is recorded for line i exactly when running that line on the tables left by the lines before it yields one, and later lines never overwrite it |
| Reader.RunWrittenGrows | src/file_reader.hpp:111-216 | output is never taken back: what line k writes follows what the lines before it wrote |
| Reader.NoticeIffUninitialized | src/file_reader.hpp:175-177 | the notice for line number i+1 is written exactly when code 1 is recorded for line i |
| Reader.ReadFile | src/file_reader.hpp:102-218 | the final report names lines of the file in ascending order, each with its own text, a code of the table and its message |
| Reader.ReadFileReports | src/file_reader.hpp:102-218 | line i appears in the final report exactly when executing it yields a code, and with that code |
| Args.FeedAllIsReference | src/parser.cpp:18-29 | the character loop collects the text before the first '-' as the file name and the text after it, without dashes, as options |
| Args.Strip | src/parser.cpp:21-22 | dropping dashes leaves no '-' and keeps every other character |
| Args.ArgParse | src/parser.cpp:13-39 | verbose is on exactly when a 'v' follows the first '-' of the arguments; the file name is everything before that '-' and holds no '-' |
| Args.ArgParser | src/parser.cpp:13-39 | the nested loops over arguments and characters compute `ArgParse` |
| Args.OneFile | src/parser.cpp:13-39 | a single argument without '-' is the file name, with verbose off |
| Args.FileThenOptions | src/parser.cpp:13-39 | a file name followed by a dashed option argument turns verbose on exactly when the options hold a 'v' |
| Args.MainAction | src/parser.cpp:43-50 | `main` reads a file only when one was named, and that name holds no '-' |
| Args.UsageIff | src/parser.cpp:45-49 | the usage line is shown exactly when the arguments are empty or start with '-' |
| Args.UsageCases | src/parser.cpp:43-49 | no argument, or a first argument starting with '-', leads to the usage line |
| Args.ProgramNameIgnored | src/parser.cpp:18 | replacing the program name `argv[0]` changes nothing |
| Args.FlattenFront | src/parser.cpp:18-29 | the arguments run together are the first argument followed by the others, run together |
| Program.Lines | src/file_reader.hpp:111-112 | the lines that `getline` gives hold no newline, and a non-empty file has at least one line |
| Program.LinesOfJoin | src/file_reader.hpp:111-112 | lines without newlines, written out one per line, are read back unchanged |
| Program.JoinOfLines | src/file_reader.hpp:111-112 | writing the lines back gives the file's text, with a final newline added when it had none |
| Program.Launch | src/file_reader.hpp:55-64 | the usage line exactly when no file is named, the open failure exactly when the named file cannot be opened, and otherwise the file is read, with no newline in any reported line |
| Program.VerboseIrrelevant | src/file_reader.hpp:108-214 | verbose mode changes only the traces, never what is read, recorded or reported |
| Scenarios.DeclaredIntIsPrinted | src/file_reader.hpp:147-197 | `n: int = v;` then `print(n);` prints `atoi(v)` and records nothing, when that value is not zero |
| Scenarios.ZeroIntIsUndeclared | src/file_reader.hpp:192-201 | an `int` declared as zero and then printed records code 3 for the print line |
| Scenarios.AssignToUnknown | src/file_reader.hpp:175-177 | assigning to an unknown name records code 1 and writes the notice for line 1 |
| Scenarios.PrintUndeclared | src/file_reader.hpp:192-201 | printing a name never declared records code 3 |
| Scenarios.IntShadowsDouble | src/file_reader.hpp:146-197 | after `n: int = v;` and `n: double = w;`, `print(n)` still shows the int value |
| Scenarios.AssignDeclaredFloat | src/file_reader.hpp:151-197 | assigning to a declared non-zero float replaces its value, and `print` shows the new value |

## Left out

- Verbose traces are not modelled. That covers `FILE_OPENED`, `NEW_*_VARIABLE`, `ALTER_*_VARIABLE` and the `DECL_ERROR_CODE` lines for codes 0, 2, 3 and -1. They are written only in verbose mode and never read back.
- Clock readings are not modelled, including the time stamp of the code-1 notice. Clocks are outside the model.
- The exact text that `printErrors` and `print` write (stream formatting of numbers) is not modelled. The model keeps the values and report entries instead.
- Floating point is not modelled. `atof` is a parameter, `naive` is computed over exact reals without `double` rounding or signed zero, and the narrowing of `atof`'s `double` result to the `float` table is left out. Because only the zero or non-zero test of a stored value steers the program, these gaps can flip a code-1 or code-3 outcome. In `naive`, a fraction of more than 308 digits whose own value stays small (`0.000…01`) makes `pow(10, n)` infinite while `f` stays finite, so `f / pow` is 0. Then `0.000…01` stores 0 in the `double` table, and a later `print` records code 3, or an assignment without ':' records code 1. The model stores a non-zero real instead. A fraction with that many significant digits gives `inf / inf`, which is NaN. NaN is non-zero, so it flips no code. Narrowing a value below the smallest `float` to the `float` table likewise stores 0.
- `readFile`'s `p_open` (declared at src/file_reader.hpp:115, set at lines 126 and 129) is never read, so it has no counterpart.
- `readFile` is declared to return `int` but returns nothing. Its result is never used, so the model gives it none.
- The file system and the second opening of the file inside `readFile` are left out. Both openings are represented by one lookup in the `files` parameter.
- `std::getline` is modelled on text split at '\n' only. Stream errors other than end of file are not modelled.
- CLib.Atoi: takes `long` to be 64 bits, as on 64-bit GNU/Linux. With a 32-bit `long`, `strtol` saturates at the `int` bounds instead, so "4294967296" would read as 2147483647, not 0 (`CLib.AtoiWrapsToZero`).
- Arguments are strings of characters. Their C representation is not modelled, in particular that they cannot contain a NUL.
- File text and arguments are sequences of characters, not C++ bytes. Every character the scanner, `atoi` and `naive` test is ASCII, so this changes no result.
- Naive.Walk: works on exact reals, so the `r*10.0` and `f / pow(10, n)` steps have no rounding.

=== FILE: args.dfy ===
/** The command line (`arg_parser` and `main` in parser.cpp). Every
    character of every argument after the program name is read in order:
    the first '-' anywhere switches from collecting the file name to
    collecting options, every '-' is dropped, and verbose mode is on when an
    option character is 'v'. Without a file name the usage line is shown. */
module Args {
  import opened Text

  /** What the character loop has collected: whether a '-' has been seen,
      the option characters and the file-name characters. */
  datatype Split = Split(dashed: bool, options: string, file: string)

  const Fresh := Split(false, "", "")

  /** The loop body for one character. */
  function Feed(st: Split, ch: char): Split {
    if ch == '-' then st.(dashed := true)
    else if st.dashed then st.(options := st.options + [ch])
    else st.(file := st.file + [ch])
  }

  /** The loop body applied to every character of `t`, in order. */
  function FeedAll(t: string): Split {
    if |t| == 0 then Fresh else Feed(FeedAll(t[..|t| - 1]), t[|t| - 1])
  }

  /** The arguments after the program name, run together. */
  function Flatten(args: seq<string>): string {
    if |args| == 0 then "" else Flatten(args[..|args| - 1]) + args[|args| - 1]
  }

  /** The arguments the loop visits: `argv[1]` to `argv[argc - 1]`. */
  function Arguments(argv: seq<string>): seq<string> {
    if |argv| <= 1 then [] else argv[1..]
  }

  /** `s` without its '-' characters. */
  function Strip(s: string): (r: string)
    ensures '-' !in r
    ensures forall c :: c != '-' ==> (c in r <==> c in s)
  {
    if |s| == 0 then ""
    else
      var init := Strip(s[..|s| - 1]);
      assert s == s[..|s| - 1] + [s[|s| - 1]];
      init + (if s[|s| - 1] == '-' then "" else [s[|s| - 1]])
  }

  /** What the loop collects, stated without the loop: the file name is
      everything before the first '-', the options are everything after it
      with the dashes dropped. */
  function Reference(t: string): Split {
    var d := First(t, '-');
    Split(d < |t|, Strip(t[d..]), t[..d])
  }

  /** One more character extends the reference split as `Feed` does. */
  lemma ReferenceStep(t: string, x: char)
    ensures Reference(t + [x]) == Feed(Reference(t), x)
  {
    var q := t + [x];
    var d := First(t, '-');
    FirstAppend(t, x, '-');
    FirstIsFirst(t, '-');
    if d < |t| {
      assert q[d..] == t[d..] + [x];
      assert q[..d] == t[..d];
      assert (t[d..] + [x])[..|t[d..]|] == t[d..];
    } else if x == '-' {
      assert q[d..] == "-";
      assert q[..d] == t;
      assert "-"[..0] == "";
    } else {
      assert q[|q|..] == "";
      assert q[..|q|] == q;
      assert t[..d] == t;
    }
  }

  /** The character loop computes the reference split. */
  lemma {:induction false} FeedAllIsReference(t: string)
    ensures FeedAll(t) == Reference(t)
  {
    if |t| == 0 {
      assert Reference(t) == Fresh;
    } else {
      var init := t[..|t| - 1];
      FeedAllIsReference(init);
      ReferenceStep(init, t[|t| - 1]);
      assert init + [t[|t| - 1]] == t;
    }
  }

  datatype Parsed = Parsed(verbose: bool, file: string)

  /** `arg_parser`: verbose exactly when 'v' comes after the first '-' of
      the arguments, and the file name is what comes before it. Neither
      the file name nor the options hold a '-', and the program name is
      never read. */
  function ArgParse(argv: seq<string>): (r: Parsed)
    ensures var t := Flatten(Arguments(argv));
      && r.file == t[..First(t, '-')]
      && (r.verbose <==> exists i :: First(t, '-') < i < |t| && t[i] == 'v')
    ensures '-' !in r.file
  {
    var t := Flatten(Arguments(argv));
    var st := FeedAll(t);
    FeedAllIsReference(t);
    VerboseAfterDash(t);
    FirstIsFirst(t, '-');
    Parsed('v' in st.options, st.file)
  }

  /** 'v' is among the options exactly when it occurs after the first '-'. */
  lemma VerboseAfterDash(t: string)
    ensures var d := First(t, '-');
      'v' in Strip(t[d..]) <==> exists i :: d < i < |t| && t[i] == 'v'
  {
    var d := First(t, '-');
    FirstIsFirst(t, '-');
    assert 'v' in Strip(t[d..]) <==> 'v' in t[d..];
    OccursAfter(t, d, 'v');
  }

  /** `c` occurs in `t[d..]` exactly when it occurs after index `d`, if it
      is not at `d` itself. */
  lemma OccursAfter(t: string, d: nat, c: char)
    requires d <= |t| && (d < |t| ==> t[d] != c)
    ensures c in t[d..] <==> exists i :: d < i < |t| && t[i] == c
  {
    var u := t[d..];
    if c in u {
      var j :| 0 <= j < |u| && u[j] == c;
      assert t[d + j] == c;
    }
    if exists i :: d < i < |t| && t[i] == c {
      var i :| d < i < |t| && t[i] == c;
      assert u[i - d] == c;
    }
  }

  /** The nested loops of `arg_parser`, argument by argument and character
      by character. */
  method ArgParser(argv: seq<string>) returns (verbose: bool, file: string)
    ensures Parsed(verbose, file) == ArgParse(argv)
  {
    var args := Arguments(argv);
    var dashed, options := false, "";
    file := "";
    ghost var seen := "";
    var a := 0;
    while a < |args|
      invariant a <= |args|
      invariant seen == Flatten(args[..a])
      invariant Split(dashed, options, file) == FeedAll(seen)
    {
      var argument := args[a];
      ghost var before := seen;
      var j := 0;
      while j < |argument|
        invariant j <= |argument|
        invariant seen == before + argument[..j]
        invariant Split(dashed, options, file) == FeedAll(seen)
      {
        var ch := argument[j];
        FeedNext(seen, ch);
        if ch == '-' {
          dashed := true;
        } else if dashed {
          options := options + [ch];
        } else {
          file := file + [ch];
        }
        assert argument[..j + 1] == argument[..j] + [ch];
        seen := seen + [ch];
        j := j + 1;
      }
      FlattenNext(args, a);
      assert argument[..j] == argument;
      a := a + 1;
    }
    assert args[..a] == args;
    verbose := 'v' in options;
  }

  /** `Flatten` takes one argument at a time. */
  lemma FlattenNext(args: seq<string>, a: nat)
    requires a < |args|
    ensures Flatten(args[..a + 1]) == Flatten(args[..a]) + args[a]
  {
    assert args[..a + 1][..a] == args[..a];
  }

  /** `FeedAll` takes one character at a time. */
  lemma FeedNext(t: string, x: char)
    ensures FeedAll(t + [x]) == Feed(FeedAll(t), x)
  {
    assert (t + [x])[..|t|] == t;
  }

  /** A single argument without a '-' is the file name, and verbose mode is
      off. */
  lemma OneFile(program: string, name: string)
    requires '-' !in name
    ensures ArgParse([program, name]) == Parsed(false, name)
  {
    var t := Flatten(Arguments([program, name]));
    assert Arguments([program, name]) == [name];
    assert Flatten([name]) == Flatten([]) + name;
    assert t == name;
    FirstAt(name, '-', |name|);
    assert name[..|name|] == name;
  }

  /** A file name followed by an option argument: verbose exactly when the
      options hold a 'v'. */
  lemma FileThenOptions(program: string, name: string, options: string)
    requires '-' !in name
    ensures ArgParse([program, name, "-" + options]) == Parsed('v' in options, name)
  {
    var args := [name, "-" + options];
    assert Arguments([program, name, "-" + options]) == args;
    assert args[..1] == [name];
    assert Flatten([name]) == Flatten([]) + name;
    var t := name + ("-" + options);
    assert Flatten(args) == t;
    FirstAt(t, '-', |name|);
    assert t[..|name|] == name;
    assert t[|name|..] == "-" + options;
    VerboseAfterDash(t);
    assert forall c :: c != '-' ==> (c in Strip("-" + options) <==> c in "-" + options);
  }

  /** What `main` does with the parsed arguments. */
  datatype Action = Usage | Read(file: string, verbose: bool)

  /** `main`: the usage line when no file name was collected, otherwise the
      named file is read. */
  function MainAction(argv: seq<string>): (r: Action)
    ensures r.Read? ==> r.file != "" && '-' !in r.file
  {
    var p := ArgParse(argv);
    if p.file != "" then Read(p.file, p.verbose) else Usage
  }

  /** The usage line is shown exactly when the arguments are empty or start
      with a '-'. */
  lemma UsageIff(argv: seq<string>)
    ensures var t := Flatten(Arguments(argv));
      MainAction(argv) == Usage <==> |t| == 0 || t[0] == '-'
  {
    var t := Flatten(Arguments(argv));
    FirstIsFirst(t, '-');
    if |t| > 0 && t[0] != '-' {
      assert First(t, '-') > 0;
      assert t[..First(t, '-')][0] == t[0];
    }
  }

  /** The program name `argv[0]` is never read. */
  lemma ProgramNameIgnored(argv: seq<string>, name: string)
    requires |argv| > 0
    ensures ArgParse(argv[0 := name]) == ArgParse(argv)
  {
    assert Arguments(argv[0 := name]) == Arguments(argv);
  }

  /** Without arguments, or when the first argument starts with '-', the
      usage line is shown. */
  lemma UsageCases(argv: seq<string>)
    requires |argv| <= 1 || (|argv[1]| > 0 && argv[1][0] == '-')
    ensures MainAction(argv) == Usage
  {
    UsageIff(argv);
    var args := Arguments(argv);
    if |args| > 0 {
      FlattenFront(args);
    }
  }

  /** `Flatten` read from the front: the first argument, then the rest. */
  lemma {:induction false} FlattenFront(args: seq<string>)
    requires |args| > 0
    ensures Flatten(args) == args[0] + Flatten(args[1..])
  {
    if |args| > 1 {
      var init := args[..|args| - 1];
      FlattenFront(init);
      assert init[1..] == args[1..][..|args[1..]| - 1];
      assert init[0] == args[0];
    } else {
      assert args[1..] == [];
    }
  }
}

=== FILE: atoi.dfy ===
/** The C library's `atoi`, which decodes the value of every `int`
    variable. On the GNU C library `atoi(s)` is `(int) strtol(s, NULL, 10)`:
    leading white space is skipped, one optional sign is read, then a run of
    decimal digits; text that does not start that way reads as 0. `strtol`
    saturates at the bounds of the 64-bit `long`, and the cast to the 32-bit
    `int` keeps the low 32 bits. */
module CLib {
  import opened Decimal

  const IntBits: nat := 0x1_0000_0000
  const IntMin: int := -0x8000_0000
  const IntMax: int := 0x7FFF_FFFF
  const LongMin: int := -0x8000_0000_0000_0000
  const LongMax: int := 0x7FFF_FFFF_FFFF_FFFF

  /** The characters C's `isspace` accepts in the "C" locale. */
  predicate IsSpace(c: char) {
    c == ' ' || c == '\t' || c == '\n' || c == '\U{B}' || c == '\U{C}' || c == '\r'
  }

  /** Number of white-space characters at the start of `s`. */
  function LeadingSpaces(s: string): (n: nat)
    ensures n <= |s|
    ensures forall i :: 0 <= i < n ==> IsSpace(s[i])
    ensures n < |s| ==> !IsSpace(s[n])
  {
    if |s| > 0 && IsSpace(s[0]) then 1 + LeadingSpaces(s[1..]) else 0
  }

  /** `strtol` with base 10, before saturation: the signed value of the
      digits after the white space and the sign. */
  function SignedPrefix(s: string): int {
    var t := s[LeadingSpaces(s)..];
    var signed := |t| > 0 && (t[0] == '-' || t[0] == '+');
    var u := if signed then t[1..] else t;
    var n := DigitRun(u);
    var m: int := Value(u[..n]);
    if |t| > 0 && t[0] == '-' then -m else m
  }

  /** Saturation at the bounds of `long`. */
  function ClampLong(x: int): (r: int)
    ensures LongMin <= r <= LongMax
    ensures LongMin <= x <= LongMax ==> r == x
  {
    if x < LongMin then LongMin else if x > LongMax then LongMax else x
  }

  /** Conversion of a `long` to a 32-bit `int`: the value congruent to `x`
      modulo 2^32 in the `int` range. */
  function WrapInt(x: int): (r: int)
    ensures IntMin <= r <= IntMax
    ensures (x - r) % IntBits == 0
    ensures IntMin <= x <= IntMax ==> r == x
  {
    var m := (x - IntMin) % IntBits;
    assert x - (m + IntMin) == ((x - IntMin) / IntBits) * IntBits;
    m + IntMin
  }

  function Atoi(s: string): (r: int)
    ensures IntMin <= r <= IntMax
  {
    WrapInt(ClampLong(SignedPrefix(s)))
  }

  /** The decimal spelling of an integer, with '-' for negatives. */
  function Show(x: int): string {
    (if x < 0 then "-" else "") + Digits(if x < 0 then -x else x)
  }

  /** A digit string, possibly after a '-', reads as its value, saturated
      and wrapped. */
  lemma AtoiDigits(negative: bool, d: string)
    requires |d| > 0 && AllDigits(d)
    ensures Atoi((if negative then "-" else "") + d)
         == WrapInt(ClampLong(if negative then -(Value(d) as int) else Value(d)))
  {
    SignedDigits(negative, d);
  }

  lemma SignedDigits(negative: bool, d: string)
    requires |d| > 0 && AllDigits(d)
    ensures SignedPrefix((if negative then "-" else "") + d)
         == if negative then -(Value(d) as int) else Value(d)
  {
    if negative {
      NegativeDigits(d);
    } else {
      assert "" + d == d;
      PositiveDigits(d);
    }
  }

  lemma PositiveDigits(d: string)
    requires |d| > 0 && AllDigits(d)
    ensures SignedPrefix(d) == Value(d)
  {
    assert IsDigit(d[0]);
    assert LeadingSpaces(d) == 0;
    assert d[0..] == d;
    assert d[..DigitRun(d)] == d by {
      DigitRunAll(d);
    }
  }

  lemma NegativeDigits(d: string)
    requires |d| > 0 && AllDigits(d)
    ensures SignedPrefix("-" + d) == -(Value(d) as int)
  {
    var s := "-" + d;
    assert LeadingSpaces(s) == 0;
    assert s[0..] == s;
    assert s[1..] == d;
    assert d[..DigitRun(d)] == d by {
      DigitRunAll(d);
    }
  }

  /** Every `int` survives being spelled in decimal and read back. */
  lemma AtoiShow(x: int)
    requires IntMin <= x <= IntMax
    ensures Atoi(Show(x)) == x
  {
    var m := if x < 0 then -x else x;
    AtoiDigits(x < 0, Digits(m));
    ValueOfDigits(m);
  }

  /** A digit string is one whole run of digits. */
  lemma DigitRunAll(d: string)
    requires AllDigits(d)
    ensures DigitRun(d) == |d|
  {
    if |d| > 0 {
      DigitRunAll(d[1..]);
    }
  }

  /** Text that, after white space and a sign, does not start with a digit
      reads as 0. */
  lemma AtoiNoDigits(s: string)
    requires var t := s[LeadingSpaces(s)..];
             var u := if |t| > 0 && (t[0] == '-' || t[0] == '+') then t[1..] else t;
             |u| == 0 || !IsDigit(u[0])
    ensures Atoi(s) == 0
  {
  }

  /** "4294967296" (2^32) reads as 0: a non-zero literal can give a zero
      `int`. */
  lemma AtoiWrapsToZero()
    ensures Atoi("4294967296") == 0
  {
    SignedTwoTo32();
    assert ClampLong(IntBits) == IntBits;
    WrapTwoTo32();
  }

  lemma SignedTwoTo32()
    ensures SignedPrefix("4294967296") == IntBits
  {
    ValueOfTwoTo32();
    SignedDigits(false, "4294967296");
    assert "" + "4294967296" == "4294967296";
  }

  lemma WrapTwoTo32()
    ensures WrapInt(IntBits) == 0
  {
    assert IntBits - IntMin == 1 * IntBits + -IntMin;
  }

  lemma ValueOfTwoTo32()
    ensures Value("4294967296") == IntBits
  {
    ValueOf42949();
    ValueAppend("42949", '6');
    assert "42949" + ['6'] == "429496";
    ValueAppend("429496", '7');
    assert "429496" + ['7'] == "4294967";
    ValueAppend("4294967", '2');
    assert "4294967" + ['2'] == "42949672";
    ValueAppend("42949672", '9');
    assert "42949672" + ['9'] == "429496729";
    ValueAppend("429496729", '6');
    assert "429496729" + ['6'] == "4294967296";
  }

  lemma ValueOf42949()
    ensures Value("42949") == 42949
  {
    ValueAppend("4", '2');
    assert "4" + ['2'] == "42";
    ValueAppend("42", '9');
    assert "42" + ['9'] == "429";
    ValueAppend("429", '4');
    assert "429" + ['4'] == "4294";
    ValueAppend("4294", '9');
    assert "4294" + ['9'] == "42949";
  }
}

=== FILE: decimal.dfy ===
/** Decimal digit strings, shared by the two number decoders (`naive` and
    the C library's `atoi`). */
module Decimal {

  predicate IsDigit(c: char) {
    '0' <= c <= '9'
  }

  predicate AllDigits(s: string) {
    forall i :: 0 <= i < |s| ==> IsDigit(s[i])
  }

  function DigitOf(c: char): (d: nat)
    requires IsDigit(c)
    ensures d < 10
  {
    c as int - '0' as int
  }

  function CharOf(d: nat): (c: char)
    requires d < 10
    ensures IsDigit(c) && DigitOf(c) == d
  {
    ('0' as int + d) as char
  }

  /** Length of the run of decimal digits at the start of `s`. */
  function DigitRun(s: string): (n: nat)
    ensures n <= |s|
    ensures AllDigits(s[..n])
    ensures n < |s| ==> !IsDigit(s[n])
  {
    if |s| > 0 && IsDigit(s[0]) then
      var n := 1 + DigitRun(s[1..]);
      assert s[..n] == [s[0]] + s[1..][..n - 1];
      n
    else 0
  }

  /** The value of a digit string read left to right, as `r = r*10 + d`. */
  function Value(s: string): nat
    requires AllDigits(s)
  {
    if |s| == 0 then 0
    else Value(s[..|s| - 1]) * 10 + DigitOf(s[|s| - 1])
  }

  function Pow10(n: nat): (p: nat)
    ensures p >= 1
  {
    if n == 0 then 1 else 10 * Pow10(n - 1)
  }

  /** The shortest decimal spelling of `n` (no leading zeros, "0" for zero). */
  function Digits(n: nat): (s: string)
    ensures |s| > 0 && AllDigits(s)
    decreases n
  {
    if n < 10 then [CharOf(n)] else Digits(n / 10) + [CharOf(n % 10)]
  }

  /** Reading back the spelling of `n` gives `n`. */
  lemma {:induction false} ValueOfDigits(n: nat)
    ensures Value(Digits(n)) == n
    decreases n
  {
    if n >= 10 {
      var s := Digits(n);
      assert s[..|s| - 1] == Digits(n / 10);
      ValueOfDigits(n / 10);
    }
  }

  /** Appending a digit multiplies by ten and adds it. */
  lemma ValueAppend(s: string, c: char)
    requires AllDigits(s) && IsDigit(c)
    ensures AllDigits(s + [c])
    ensures Value(s + [c]) == Value(s) * 10 + DigitOf(c)
  {
    assert (s + [c])[..|s|] == s;
  }
}

=== FILE: diagnostics.dfy ===
/** The error codes a line can record, their messages (`getError`), and the
    end-of-run report (`printErrors`): every line that recorded a code, in
    ascending line order, with its 1-based number and its original text. */
module Diagnostics {

  const Unreadable: int := -1
  const NoTypeOrValue: int := 0
  const Uninitialized: int := 1
  const NeedsArguments: int := 2
  const Undeclared: int := 3

  predicate IsErrorCode(code: int) {
    code == Unreadable || code == NoTypeOrValue || code == Uninitialized
    || code == NeedsArguments || code == Undeclared
  }

  const UnknownCode := "No such error code."

  /** `getError`: the message for a code; every code outside the table gets
      the same fallback message, and the five codes get five distinct
      messages. */
  function Message(code: int): (m: string)
    ensures m == UnknownCode <==> !IsErrorCode(code)
  {
    if code == NoTypeOrValue then "No type or value assigned."
    else if code == Uninitialized then "Variable uninitialized."
    else if code == Unreadable then "Unreadable code."
    else if code == NeedsArguments then "This function need arguments."
    else if code == Undeclared then "Variable undeclared."
    else UnknownCode
  }

  /** Distinct codes of the table have distinct messages. */
  lemma MessagesDistinct(a: int, b: int)
    requires IsErrorCode(a) && IsErrorCode(b) && a != b
    ensures Message(a) != Message(b)
  {
  }

  /** One reported error: the code, its message, the 0-based index of the
      line and the text of the line. */
  datatype Entry = Entry(code: int, message: string, index: nat, text: string) {
    /** The line number shown to the user. */
    function LineNumber(): int {
      index + 1
    }
  }

  /** `e` is what `printErrors` writes for the line it names. */
  predicate Describes(e: Entry, lines: seq<string>, errors: map<int, int>) {
    && e.index < |lines|
    && e.index in errors
    && e.code == errors[e.index]
    && e.message == Message(e.code)
    && e.text == lines[e.index]
  }

  /** `printErrors` from line index `i` on: the lines `i..|lines|` that have a
      recorded code, in ascending order. Codes recorded for indices outside
      the file are never reported. */
  function ReportFrom(lines: seq<string>, errors: map<int, int>, i: nat): (r: seq<Entry>)
    requires i <= |lines|
    ensures forall k :: 0 <= k < |r| ==> Describes(r[k], lines, errors) && r[k].index >= i
    ensures forall k, l :: 0 <= k < l < |r| ==> r[k].index < r[l].index
    decreases |lines| - i
  {
    if i == |lines| then []
    else
      var rest := ReportFrom(lines, errors, i + 1);
      if i in errors then [Entry(errors[i], Message(errors[i]), i, lines[i])] + rest
      else rest
  }

  /** Every line from `i` on with a recorded code has an entry. */
  lemma {:induction false} ReportFromComplete(lines: seq<string>, errors: map<int, int>, i: nat, j: nat)
    requires i <= j < |lines| && j in errors
    ensures exists k :: 0 <= k < |ReportFrom(lines, errors, i)| && ReportFrom(lines, errors, i)[k].index == j
    decreases |lines| - i
  {
    var r := ReportFrom(lines, errors, i);
    if i == j {
      assert r[0].index == j;
    } else {
      ReportFromComplete(lines, errors, i + 1, j);
      var rest := ReportFrom(lines, errors, i + 1);
      var k :| 0 <= k < |rest| && rest[k].index == j;
      if i in errors {
        assert r[k + 1] == rest[k];
      } else {
        assert r[k] == rest[k];
      }
    }
  }

  /** `printErrors`: exactly the lines with a recorded code, each once, in
      ascending order. */
  function Report(lines: seq<string>, errors: map<int, int>): (r: seq<Entry>)
    ensures forall k :: 0 <= k < |r| ==> Describes(r[k], lines, errors)
    ensures forall k, l :: 0 <= k < l < |r| ==> r[k].index < r[l].index
  {
    ReportFrom(lines, errors, 0)
  }

  /** Every line with a recorded code is reported. */
  lemma ReportComplete(lines: seq<string>, errors: map<int, int>)
    ensures forall j :: 0 <= j < |lines| && j in errors ==>
              exists k :: 0 <= k < |Report(lines, errors)| && Report(lines, errors)[k].index == j
  {
    forall j | 0 <= j < |lines| && j in errors
      ensures exists k :: 0 <= k < |Report(lines, errors)| && Report(lines, errors)[k].index == j
    {
      ReportFromComplete(lines, errors, 0, j);
      var r := Report(lines, errors);
      assert r == ReportFrom(lines, errors, 0);
      var k :| 0 <= k < |r| && r[k].index == j;
    }
  }

  /** Line `i` of the file is reported exactly when a code is recorded for
      it, and then with that code. */
  lemma ReportedIffRecorded(lines: seq<string>, errors: map<int, int>, i: nat)
    requires i < |lines|
    ensures (exists k :: 0 <= k < |Report(lines, errors)| && Report(lines, errors)[k].index == i)
        <==> i in errors
    ensures forall k :: 0 <= k < |Report(lines, errors)| && Report(lines, errors)[k].index == i
              ==> Report(lines, errors)[k].code == errors[i]
  {
    ReportComplete(lines, errors);
  }
}

=== FILE: driver.dfy ===
/** `readFile`: the file is read line by line; each line is scanned and its
    statement applied to the tables the earlier lines left, codes are
    recorded by 0-based line index, and after the last line the report of
    `printErrors` is written. */
module Reader {
  import opened Scanner
  import opened Executor
  import opened Diagnostics

  /** What the run writes while reading, leaving out the verbose traces:
      the value shown by each successful `print`, and the notice written
      for every code-1 line whether or not verbose mode is on (its time
      stamp is not modelled). */
  datatype Written = Shown(value: Value) | UninitializedNotice(lineNumber: int)

  /** The state between two lines: the tables, the codes recorded so far,
      and what has been written. */
  datatype RunState = RunState(store: Store, errors: map<int, int>, written: seq<Written>)

  const Begin := RunState(EmptyStore, map[], [])

  /** What line `i` writes, given its outcome: at most one item, the
      printed value or the code-1 notice naming the line by its 1-based
      number. */
  function Emitted(o: Outcome, i: nat): (r: seq<Written>)
    ensures |r| <= 1
    ensures |r| == 1 <==> o.printed.Some? || o.error == Some(Uninitialized)
    ensures forall k :: 0 <= k < |r| && r[k].UninitializedNotice? ==> r[k].lineNumber == i + 1
    ensures o.printed.Some? ==> r == [Shown(o.printed.value)]
  {
    if o.printed.Some? then [Shown(o.printed.value)]
    else if o.error == Some(Uninitialized) then [UninitializedNotice(i + 1)]
    else []
  }

  /** The state after line `i` has had outcome `o`. */
  function Apply(st: RunState, i: nat, o: Outcome): RunState {
    RunState(o.store,
             if o.error.Some? then st.errors[i := o.error.value] else st.errors,
             st.written + Emitted(o, i))
  }

  /** Line `i`, with text `line`, applied after the state `st`. */
  function Record(st: RunState, i: nat, line: string, atof: string -> real): RunState {
    Apply(st, i, Execute(Scan(line), st.store, atof))
  }

  /** The loop over the lines of the file. Codes are recorded only for
      lines of the file and only from the table of codes; each line writes
      at most one thing, and every notice names a line of the file. */
  function Run(lines: seq<string>, atof: string -> real): (st: RunState)
    ensures forall i :: i in st.errors ==> 0 <= i < |lines| && IsErrorCode(st.errors[i])
    ensures |st.written| <= |lines|
    ensures forall k :: 0 <= k < |st.written| && st.written[k].UninitializedNotice?
              ==> 1 <= st.written[k].lineNumber <= |lines|
  {
    if |lines| == 0 then Begin
    else Record(Run(lines[..|lines| - 1], atof), |lines| - 1, lines[|lines| - 1], atof)
  }

  /** What line `i` does: its statement run on the tables left by the lines
      before it. */
  function LineOutcome(lines: seq<string>, i: nat, atof: string -> real): Outcome
    requires i < |lines|
  {
    Execute(Scan(lines[i]), Run(lines[..i], atof).store, atof)
  }

  /** Dropping the last line does not change what an earlier line does. */
  lemma LineOutcomePrefix(lines: seq<string>, i: nat, atof: string -> real)
    requires i < |lines| - 1
    ensures LineOutcome(lines[..|lines| - 1], i, atof) == LineOutcome(lines, i, atof)
  {
    var init := lines[..|lines| - 1];
    assert init[..i] == lines[..i];
    assert init[i] == lines[i];
  }

  /** The run over all lines is the run over all but the last, followed by
      the last line's outcome. */
  lemma RunLast(lines: seq<string>, atof: string -> real)
    requires |lines| > 0
    ensures Run(lines, atof)
         == Apply(Run(lines[..|lines| - 1], atof), |lines| - 1, LineOutcome(lines, |lines| - 1, atof))
  {
  }

  /** A code is recorded for line `i` exactly when executing that line
      yields one, and it is that code: later lines never overwrite it. */
  lemma {:induction false} RunErrors(lines: seq<string>, i: nat, atof: string -> real)
    requires i < |lines|
    ensures i in Run(lines, atof).errors <==> LineOutcome(lines, i, atof).error.Some?
    ensures i in Run(lines, atof).errors
        ==> Run(lines, atof).errors[i] == LineOutcome(lines, i, atof).error.value
  {
    var n := |lines|;
    var init := lines[..n - 1];
    var prev, last := Run(init, atof), LineOutcome(lines, n - 1, atof);
    assert Run(lines, atof) == Apply(prev, n - 1, last) by {
      RunLast(lines, atof);
    }
    ApplyLine(prev, n - 1, last, i);
    if i < n - 1 {
      RunErrors(init, i, atof);
      LineOutcomePrefix(lines, i, atof);
    }
  }

  /** Nothing written is ever taken back: reading more lines only extends
      what has been written, and what line `k` writes comes right after
      what the lines before it wrote. */
  lemma {:induction false} RunWrittenGrows(lines: seq<string>, k: nat, atof: string -> real)
    requires k < |lines|
    ensures Run(lines[..k], atof).written + Emitted(LineOutcome(lines, k, atof), k)
         <= Run(lines, atof).written
  {
    var n := |lines|;
    var init := lines[..n - 1];
    RunLast(lines, atof);
    var last := Emitted(LineOutcome(lines, n - 1, atof), n - 1);
    assert Run(lines, atof).written == Run(init, atof).written + last;
    if k < n - 1 {
      RunWrittenGrows(init, k, atof);
      LineOutcomePrefix(lines, k, atof);
      assert init[..k] == lines[..k];
    } else {
      assert init == lines[..k];
    }
  }

  /** The notice for line number `i + 1` is written exactly when code 1 is
      recorded for line `i`. */
  lemma {:induction false} NoticeIffUninitialized(lines: seq<string>, i: nat, atof: string -> real)
    requires i < |lines|
    ensures UninitializedNotice(i + 1) in Run(lines, atof).written
        <==> i in Run(lines, atof).errors && Run(lines, atof).errors[i] == Uninitialized
  {
    var n := |lines|;
    var init := lines[..n - 1];
    var prev, last := Run(init, atof), LineOutcome(lines, n - 1, atof);
    assert Run(lines, atof) == Apply(prev, n - 1, last) by {
      RunLast(lines, atof);
    }
    ApplyLine(prev, n - 1, last, i);
    if i < n - 1 {
      NoticeIffUninitialized(init, i, atof);
    }
  }

  /** How line `n` changes the codes and notices of earlier lines (not at
      all) and of itself, after a state that names only earlier lines. */
  lemma ApplyLine(st: RunState, n: nat, o: Outcome, i: nat)
    requires forall k :: 0 <= k < |st.written| && st.written[k].UninitializedNotice?
               ==> 1 <= st.written[k].lineNumber <= n
    requires forall k :: k in st.errors ==> k < n
    requires i <= n
    requires o.printed.Some? ==> o.error.None?
    ensures var r := Apply(st, n, o);
      i < n ==> (UninitializedNotice(i + 1) in r.written <==> UninitializedNotice(i + 1) in st.written)
    ensures var r := Apply(st, n, o);
      i < n ==> (i in r.errors <==> i in st.errors) && (i in r.errors ==> r.errors[i] == st.errors[i])
    ensures var r := Apply(st, n, o);
      i == n ==> (i in r.errors <==> o.error.Some?) && (i in r.errors ==> r.errors[i] == o.error.value)
    ensures var r := Apply(st, n, o);
      i == n ==> (UninitializedNotice(i + 1) in r.written <==> i in r.errors && r.errors[i] == Uninitialized)
  {
    var e := Emitted(o, n);
    assert Apply(st, n, o).written == st.written + e;
    assert UninitializedNotice(n + 1) !in st.written;
  }

  /** Everything `readFile` writes: the output written while reading, then
      the report of `printErrors`. */
  datatype Session = Session(written: seq<Written>, report: seq<Entry>)

  /** `readFile` on the lines of a file. The report names lines of the file
      only, in ascending order, each with its own text and a code of the
      table. */
  function ReadFile(lines: seq<string>, atof: string -> real): (r: Session)
    ensures forall k :: 0 <= k < |r.report| ==>
              && r.report[k].index < |lines|
              && r.report[k].text == lines[r.report[k].index]
              && IsErrorCode(r.report[k].code)
              && r.report[k].message == Message(r.report[k].code)
    ensures forall k, l :: 0 <= k < l < |r.report| ==> r.report[k].index < r.report[l].index
  {
    var st := Run(lines, atof);
    Session(st.written, Report(lines, st.errors))
  }

  /** Line `i` is in the report exactly when executing it yields a code,
      and then with that code. */
  lemma ReadFileReports(lines: seq<string>, i: nat, atof: string -> real)
    requires i < |lines|
    ensures (exists k :: 0 <= k < |ReadFile(lines, atof).report| && ReadFile(lines, atof).report[k].index == i)
        <==> LineOutcome(lines, i, atof).error.Some?
    ensures forall k :: 0 <= k < |ReadFile(lines, atof).report| && ReadFile(lines, atof).report[k].index == i
              ==> ReadFile(lines, atof).report[k].code == LineOutcome(lines, i, atof).error.value
  {
    var errors := Run(lines, atof).errors;
    assert ReadFile(lines, atof).report == Report(lines, errors);
    RunErrors(lines, i, atof);
    ReportedIffRecorded(lines, errors, i);
  }
}

=== FILE: executor.dfy ===
/** The statement executor of `readFile`: what one scanned line does to the
    three variable tables, which error code it records, and what it prints.

    Every lookup in `readFile` is `table[name]` used as a condition. In C++
    that inserts a zero entry when the name is missing, and it is true only
    when the stored value is non-zero. `Touch` models the insertion and
    `Holds` the test; `ZerosUnobservable` shows that the inserted zeros (and
    zero entries in general) never change what a later line does. */
module Executor {
  import opened Scanner
  import opened Diagnostics
  import CLib
  import Naive

  datatype Option<T> = None | Some(value: T)

  /** The three tables of `Code_manager`, keyed by variable name. Values are
      exact: `int` values are in the 32-bit range (they come from `atoi`),
      `float` and `double` values are reals. */
  datatype Store = Store(ints: map<string, int>, floats: map<string, real>, doubles: map<string, real>)

  const EmptyStore := Store(map[], map[], map[])

  /** A printed value, tagged with the table it was found in. */
  datatype Value = IntValue(i: int) | FloatValue(f: real) | DoubleValue(d: real)

  /** What one line does: the new tables, at most one error code, and at
      most one printed value. */
  datatype Outcome = Outcome(store: Store, error: Option<int>, printed: Option<Value>)

  /** `table[k]` used as a condition. */
  predicate Holds<V(==)>(m: map<string, V>, k: string, zero: V) {
    k in m && m[k] != zero
  }

  /** The table after `table[k]` has been evaluated: a missing key is
      inserted with the zero value, and nothing else changes. */
  function Touch<V>(m: map<string, V>, k: string, zero: V): (r: map<string, V>)
    ensures r.Keys == m.Keys + {k}
    ensures forall j :: j in m ==> r[j] == m[j]
    ensures k !in m ==> r[k] == zero
  {
    if k in m then m else m[k := zero]
  }

  /** A declaration with a type annotation: `int`, `float` and `double`
      overwrite that table's entry; any other type text does nothing. */
  function DeclareTyped(n: string, t: string, v: string, s: Store, atof: string -> real): Store {
    if t == "int" then s.(ints := s.ints[n := CLib.Atoi(v)])
    else if t == "float" then s.(floats := s.floats[n := atof(v)])
    else if t == "double" then s.(doubles := s.doubles[n := Naive.Decode(v)])
    else s
  }

  /** An assignment without a type: the first of the int, float and double
      tables where the name holds a non-zero value is updated. Failing that,
      a ':' seen on the line creates a double; otherwise code 1. */
  function Assign(n: string, v: string, sawColon: bool, s: Store, atof: string -> real): Outcome {
    var s1 := s.(ints := Touch(s.ints, n, 0));
    if Holds(s.ints, n, 0) then Outcome(s1.(ints := s1.ints[n := CLib.Atoi(v)]), None, None)
    else
      var s2 := s1.(floats := Touch(s1.floats, n, 0.0));
      if Holds(s.floats, n, 0.0) then Outcome(s2.(floats := s2.floats[n := atof(v)]), None, None)
      else
        var s3 := s2.(doubles := Touch(s2.doubles, n, 0.0));
        if Holds(s.doubles, n, 0.0) then
          Outcome(s3.(doubles := s3.doubles[n := Naive.Decode(v)]), None, None)
        else if !sawColon then Outcome(s3, Some(Uninitialized), None)
        else Outcome(s3.(doubles := s3.doubles[n := Naive.Decode(v)]), None, None)
  }

  /** `print(a)`: the value of `a` in the first table where it is non-zero,
      or code 3. */
  function Print(a: string, s: Store): Outcome {
    var s1 := s.(ints := Touch(s.ints, a, 0));
    if Holds(s.ints, a, 0) then Outcome(s1, None, Some(IntValue(s.ints[a])))
    else
      var s2 := s1.(floats := Touch(s1.floats, a, 0.0));
      if Holds(s.floats, a, 0.0) then Outcome(s2, None, Some(FloatValue(s.floats[a])))
      else
        var s3 := s2.(doubles := Touch(s2.doubles, a, 0.0));
        if Holds(s.doubles, a, 0.0) then Outcome(s3, None, Some(DoubleValue(s.doubles[a])))
        else Outcome(s3, Some(Undeclared), None)
  }

  /** A line without '(' whose value is assigned but whose name is found in
      no table and which saw no ':'. */
  predicate Uninitializable(f: Fragment, s: Store) {
    && !f.sawParen && f.name != "" && f.typeText == "" && f.value != ""
    && !Holds(s.ints, f.name, 0) && !Holds(s.floats, f.name, 0.0) && !Holds(s.doubles, f.name, 0.0)
    && !f.sawColon
  }

  /** A `print` call whose argument is found in no table. */
  predicate PrintsNothing(f: Fragment, s: Store) {
    && f.sawParen && f.name == "print" && f.arg != ""
    && !Holds(s.ints, f.arg, 0) && !Holds(s.floats, f.arg, 0.0) && !Holds(s.doubles, f.arg, 0.0)
  }

  /** One line's statement. Each error code is recorded exactly in the
      situation it names, and only `print` prints. */
  function Execute(f: Fragment, s: Store, atof: string -> real): (r: Outcome)
    ensures r.error.Some? ==> IsErrorCode(r.error.value)
    ensures r.printed.Some? ==> r.error.None? && f.sawParen && f.name == "print" && f.arg != ""
    ensures r.error == Some(Unreadable)
        <==> !f.sawParen && f.name == "" && (f.typeText != "" || f.value != "")
    ensures r.error == Some(NoTypeOrValue)
        <==> !f.sawParen && f.name != "" && f.typeText == "" && f.value == ""
    ensures r.error == Some(Uninitialized) <==> Uninitializable(f, s)
    ensures r.error == Some(NeedsArguments) <==> f.sawParen && f.name != "" && f.arg == ""
    ensures r.error == Some(Undeclared) <==> PrintsNothing(f, s)
  {
    if !f.sawParen && f.name != "" then
      if f.typeText != "" then Outcome(DeclareTyped(f.name, f.typeText, f.value, s, atof), None, None)
      else if f.value != "" then Assign(f.name, f.value, f.sawColon, s, atof)
      else Outcome(s, Some(NoTypeOrValue), None)
    else if f.sawParen then
      if f.name == "" then Outcome(s, None, None)
      else if f.arg == "" then Outcome(s, Some(NeedsArguments), None)
      else if f.name == "print" then Print(f.arg, s)
      else Outcome(s, None, None)
    else if f.typeText != "" || f.value != "" then Outcome(s, Some(Unreadable), None)
    else Outcome(s, None, None)
  }

  // ---------------------------------------------------------------------
  // The effect of each kind of statement

  /** A declaration with a type overwrites the named entry of the table of
      that type, whatever the other tables hold, and touches nothing else;
      with an unknown type it does nothing at all. */
  lemma TypedDeclarationEffect(f: Fragment, s: Store, atof: string -> real)
    requires !f.sawParen && f.name != "" && f.typeText != ""
    ensures Execute(f, s, atof).error == None && Execute(f, s, atof).printed == None
    ensures f.typeText == "int"
        ==> Execute(f, s, atof).store == s.(ints := s.ints[f.name := CLib.Atoi(f.value)])
    ensures f.typeText == "float"
        ==> Execute(f, s, atof).store == s.(floats := s.floats[f.name := atof(f.value)])
    ensures f.typeText == "double"
        ==> Execute(f, s, atof).store == s.(doubles := s.doubles[f.name := Naive.Decode(f.value)])
    ensures f.typeText != "int" && f.typeText != "float" && f.typeText != "double"
        ==> Execute(f, s, atof).store == s
  {
  }

  /** An assignment without a type updates the name in the first table
      that holds it with a non-zero value, and no later table is changed in
      any way a lookup could see. A name held nowhere becomes a double when
      the line saw a ':', and otherwise records code 1 and changes nothing
      visible. */
  lemma AssignmentEffect(f: Fragment, s: Store, atof: string -> real)
    requires !f.sawParen && f.name != "" && f.typeText == "" && f.value != ""
    ensures Execute(f, s, atof).printed == None
    ensures var r := Execute(f, s, atof).store; var n := f.name;
      Holds(s.ints, n, 0)
      ==> Execute(f, s, atof).error == None && r == s.(ints := s.ints[n := CLib.Atoi(f.value)])
    ensures var r := Execute(f, s, atof).store; var n := f.name;
      !Holds(s.ints, n, 0) && Holds(s.floats, n, 0.0)
      ==> && Execute(f, s, atof).error == None
          && r.floats == s.floats[n := atof(f.value)]
          && Visible(r.ints, 0) == Visible(s.ints, 0) && r.doubles == s.doubles
    ensures var r := Execute(f, s, atof).store; var n := f.name;
      !Holds(s.ints, n, 0) && !Holds(s.floats, n, 0.0) && (Holds(s.doubles, n, 0.0) || f.sawColon)
      ==> && Execute(f, s, atof).error == None
          && r.doubles == s.doubles[n := Naive.Decode(f.value)]
          && Visible(r.ints, 0) == Visible(s.ints, 0)
          && Visible(r.floats, 0.0) == Visible(s.floats, 0.0)
    ensures Uninitializable(f, s) ==> Alike(Execute(f, s, atof).store, s)
  {
    var n := f.name;
    VisibleTouch(s.ints, n, 0);
    VisibleTouch(s.floats, n, 0.0);
    VisibleTouch(s.doubles, n, 0.0);
  }

  /** `print(a)` shows the value of `a` from the first table where it is
      non-zero, records code 3 when there is none, and changes nothing a
      lookup could see. */
  lemma PrintEffect(f: Fragment, s: Store, atof: string -> real)
    requires f.sawParen && f.name == "print" && f.arg != ""
    ensures Alike(Execute(f, s, atof).store, s)
    ensures var a := f.arg;
      Holds(s.ints, a, 0) ==> Execute(f, s, atof).printed == Some(IntValue(s.ints[a]))
    ensures var a := f.arg;
      !Holds(s.ints, a, 0) && Holds(s.floats, a, 0.0)
      ==> Execute(f, s, atof).printed == Some(FloatValue(s.floats[a]))
    ensures var a := f.arg;
      !Holds(s.ints, a, 0) && !Holds(s.floats, a, 0.0) && Holds(s.doubles, a, 0.0)
      ==> Execute(f, s, atof).printed == Some(DoubleValue(s.doubles[a]))
    ensures Execute(f, s, atof).printed == None <==> Execute(f, s, atof).error == Some(Undeclared)
  {
    var a := f.arg;
    VisibleTouch(s.ints, a, 0);
    VisibleTouch(s.floats, a, 0.0);
    VisibleTouch(s.doubles, a, 0.0);
  }

  /** Lines that are neither a declaration, an assignment nor a `print`
      with an argument leave the tables exactly as they were and print
      nothing: blank lines, comments, calls of other functions, calls
      without a name or without an argument, and the lines of codes 0 and
      -1. */
  lemma InertLines(f: Fragment, s: Store, atof: string -> real)
    requires f.sawParen ==> f.name != "print" || f.arg == ""
    requires !f.sawParen ==> f.name == "" || (f.typeText == "" && f.value == "")
    ensures Execute(f, s, atof).store == s
    ensures Execute(f, s, atof).printed == None
  {
  }

  // ---------------------------------------------------------------------
  // What is observable of a table

  /** The entries `Holds` can see: the non-zero ones. */
  function Visible<V(==)>(m: map<string, V>, zero: V): (r: map<string, V>)
    ensures forall k :: k in r <==> Holds(m, k, zero)
    ensures forall k :: k in r ==> k in m && r[k] == m[k]
  {
    map k | k in m && m[k] != zero :: m[k]
  }

  /** Two stores no lookup can tell apart. */
  predicate Alike(s: Store, t: Store) {
    && Visible(s.ints, 0) == Visible(t.ints, 0)
    && Visible(s.floats, 0.0) == Visible(t.floats, 0.0)
    && Visible(s.doubles, 0.0) == Visible(t.doubles, 0.0)
  }

  lemma VisibleTouch<V>(m: map<string, V>, k: string, zero: V)
    ensures Visible(Touch(m, k, zero), zero) == Visible(m, zero)
  {
  }

  lemma VisibleUpdate<V>(m: map<string, V>, m': map<string, V>, k: string, v: V, zero: V)
    requires Visible(m, zero) == Visible(m', zero)
    ensures Visible(m[k := v], zero) == Visible(m'[k := v], zero)
  {
  }

  lemma HoldsAlike<V>(m: map<string, V>, m': map<string, V>, k: string, zero: V)
    requires Visible(m, zero) == Visible(m', zero)
    ensures Holds(m, k, zero) <==> Holds(m', k, zero)
    ensures Holds(m, k, zero) ==> m[k] == m'[k]
  {
    assert Holds(m, k, zero) <==> k in Visible(m, zero);
    assert Holds(m', k, zero) <==> k in Visible(m', zero);
    if Holds(m, k, zero) {
      assert Visible(m, zero)[k] == m[k];
    }
  }

  /** Zero entries, including the ones lookups insert, are never observed:
      on two stores no lookup can tell apart, a line records the same error,
      prints the same value, and leaves stores no lookup can tell apart. */
  lemma ZerosUnobservable(f: Fragment, s: Store, t: Store, atof: string -> real)
    requires Alike(s, t)
    ensures Execute(f, s, atof).error == Execute(f, t, atof).error
    ensures Execute(f, s, atof).printed == Execute(f, t, atof).printed
    ensures Alike(Execute(f, s, atof).store, Execute(f, t, atof).store)
  {
    if !f.sawParen && f.name != "" && f.typeText != "" {
      DeclareAlike(f.name, f.typeText, f.value, s, t, atof);
    } else if !f.sawParen && f.name != "" && f.value != "" {
      AssignAlike(f.name, f.value, f.sawColon, s, t, atof);
    } else if f.sawParen && f.name == "print" && f.arg != "" {
      PrintAlike(f.arg, s, t);
    }
  }

  lemma DeclareAlike(n: string, ty: string, v: string, s: Store, t: Store, atof: string -> real)
    requires Alike(s, t)
    ensures Alike(DeclareTyped(n, ty, v, s, atof), DeclareTyped(n, ty, v, t, atof))
  {
    if ty == "int" {
      VisibleUpdate(s.ints, t.ints, n, CLib.Atoi(v), 0);
    } else if ty == "float" {
      VisibleUpdate(s.floats, t.floats, n, atof(v), 0.0);
    } else if ty == "double" {
      VisibleUpdate(s.doubles, t.doubles, n, Naive.Decode(v), 0.0);
    }
  }

  lemma AssignAlike(n: string, v: string, colon: bool, s: Store, t: Store, atof: string -> real)
    requires Alike(s, t)
    ensures Assign(n, v, colon, s, atof).error == Assign(n, v, colon, t, atof).error
    ensures Assign(n, v, colon, s, atof).printed == Assign(n, v, colon, t, atof).printed
    ensures Alike(Assign(n, v, colon, s, atof).store, Assign(n, v, colon, t, atof).store)
  {
    HoldsAlike(s.ints, t.ints, n, 0);
    HoldsAlike(s.floats, t.floats, n, 0.0);
    HoldsAlike(s.doubles, t.doubles, n, 0.0);
    VisibleTouch(s.ints, n, 0);
    VisibleTouch(t.ints, n, 0);
    VisibleTouch(s.floats, n, 0.0);
    VisibleTouch(t.floats, n, 0.0);
    VisibleTouch(s.doubles, n, 0.0);
    VisibleTouch(t.doubles, n, 0.0);
    VisibleUpdate(Touch(s.ints, n, 0), Touch(t.ints, n, 0), n, CLib.Atoi(v), 0);
    VisibleUpdate(Touch(s.floats, n, 0.0), Touch(t.floats, n, 0.0), n, atof(v), 0.0);
    VisibleUpdate(Touch(s.doubles, n, 0.0), Touch(t.doubles, n, 0.0), n, Naive.Decode(v), 0.0);
  }

  lemma PrintAlike(a: string, s: Store, t: Store)
    requires Alike(s, t)
    ensures Print(a, s).error == Print(a, t).error
    ensures Print(a, s).printed == Print(a, t).printed
    ensures Alike(Print(a, s).store, Print(a, t).store)
  {
    HoldsAlike(s.ints, t.ints, a, 0);
    HoldsAlike(s.floats, t.floats, a, 0.0);
    HoldsAlike(s.doubles, t.doubles, a, 0.0);
    VisibleTouch(s.ints, a, 0);
    VisibleTouch(t.ints, a, 0);
    VisibleTouch(s.floats, a, 0.0);
    VisibleTouch(t.floats, a, 0.0);
    VisibleTouch(s.doubles, a, 0.0);
    VisibleTouch(t.doubles, a, 0.0);
  }
}

=== FILE: naive.dfy ===
/** The hand-written decimal decoder `naive` used for `double` variables:
    an optional '-', a run of integer digits, then optionally '.' and a run of
    fraction digits, giving `whole + fraction / 10^places`, negated after a
    leading '-'. Anything after the longest such prefix is ignored.
    Values are exact reals: the rounding of the C `double` arithmetic is not
    modelled. */
module Naive {
  import opened Decimal

  /** What `naive` reads: the sign, the integer digits' value, the fraction
      digits' value and the number of fraction digits. */
  datatype Numeral = Numeral(negative: bool, whole: nat, fraction: nat, places: nat)

  function Magnitude(n: Numeral): real {
    n.whole as real + n.fraction as real / Pow10(n.places) as real
  }

  function NumeralValue(n: Numeral): real {
    if n.negative then -Magnitude(n) else Magnitude(n)
  }

  /** 1 when the text starts with '-', else 0. */
  function SignLength(s: string): (k: nat)
    ensures k <= |s|
  {
    if |s| > 0 && s[0] == '-' then 1 else 0
  }

  /** Index just past the integer digits. */
  function WholeEnd(s: string): (e: nat)
    ensures SignLength(s) <= e <= |s|
    ensures AllDigits(s[SignLength(s)..e])
  {
    var k := SignLength(s);
    var n := DigitRun(s[k..]);
    assert s[k..][..n] == s[k..k + n];
    k + n
  }

  predicate HasPoint(s: string) {
    WholeEnd(s) < |s| && s[WholeEnd(s)] == '.'
  }

  /** Number of characters `naive` consumes. */
  function Consumed(s: string): (e: nat)
    ensures WholeEnd(s) <= e <= |s|
    ensures HasPoint(s) ==> WholeEnd(s) < e && AllDigits(s[WholeEnd(s) + 1..e])
    ensures !HasPoint(s) ==> e == WholeEnd(s)
  {
    var w := WholeEnd(s);
    if HasPoint(s) then
      var n := DigitRun(s[w + 1..]);
      assert s[w + 1..][..n] == s[w + 1..w + 1 + n];
      w + 1 + n
    else w
  }

  function Parse(s: string): Numeral {
    var k := SignLength(s);
    var w := WholeEnd(s);
    var e := Consumed(s);
    if HasPoint(s) then Numeral(k == 1, Value(s[k..w]), Value(s[w + 1..e]), e - w - 1)
    else Numeral(k == 1, Value(s[k..w]), 0, 0)
  }

  /** `naive(p)`: the decoded value, non-negative unless the text starts
      with '-'. */
  function Decode(s: string): (r: real)
    ensures (|s| == 0 || s[0] != '-') ==> r >= 0.0
    ensures |s| > 0 && s[0] == '-' ==> r <= 0.0
  {
    NumeralValue(Parse(s))
  }

  /** One of `naive`'s two digit loops: from index `from`, accumulate
      `v = v*10 + digit` while the character is a decimal digit. */
  method ReadDigits(s: string, from: nat) returns (v: real, p: nat)
    requires from <= |s|
    ensures from <= p <= |s| && AllDigits(s[from..p])
    ensures p < |s| ==> !IsDigit(s[p])
    ensures v == Value(s[from..p]) as real
  {
    v := 0.0;
    p := from;
    while p < |s| && IsDigit(s[p])
      invariant from <= p <= |s|
      invariant AllDigits(s[from..p])
      invariant v == Value(s[from..p]) as real
    {
      ValueAppend(s[from..p], s[p]);
      assert s[from..p + 1] == s[from..p] + [s[p]];
      v := v * 10.0 + DigitOf(s[p]) as real;
      p := p + 1;
    }
  }

  /** `naive` as written: one walk along the text with two digit loops. */
  method Walk(s: string) returns (r: real)
    ensures r == Decode(s)
  {
    var p := 0;
    var neg := false;
    if p < |s| && s[p] == '-' {
      neg := true;
      p := p + 1;
    }
    assert p == SignLength(s);
    r, p := ReadDigits(s, p);
    ParseWhole(s, p);
    ghost var num := Parse(s);
    assert r == num.whole as real && neg == num.negative;
    if p < |s| && s[p] == '.' {
      var f, q := ReadDigits(s, p + 1);
      ParseFraction(s, q);
      var n := q - p - 1;
      assert f == num.fraction as real && n == num.places;
      r := r + f / Pow10(n) as real;
      p := q;
    } else {
      assert num.fraction == 0 && num.places == 0;
    }
    assert r == Magnitude(num);
    if neg {
      r := -r;
    }
  }

  /** Where the integer digits end, and what they are worth. */
  lemma ParseWhole(s: string, p: nat)
    requires SignLength(s) <= p <= |s| && AllDigits(s[SignLength(s)..p])
    requires p < |s| ==> !IsDigit(s[p])
    ensures p == WholeEnd(s)
    ensures Parse(s).negative == (SignLength(s) == 1)
    ensures Parse(s).whole == Value(s[SignLength(s)..p])
    ensures !HasPoint(s) ==> Parse(s).fraction == 0 && Parse(s).places == 0
  {
    var k := SignLength(s);
    assert s[k..][..p - k] == s[k..p];
    DigitRunUnique(s[k..], p - k);
  }

  /** Where the fraction digits end, and what they are worth. */
  lemma ParseFraction(s: string, p: nat)
    requires HasPoint(s)
    requires WholeEnd(s) + 1 <= p <= |s| && AllDigits(s[WholeEnd(s) + 1..p])
    requires p < |s| ==> !IsDigit(s[p])
    ensures Parse(s).fraction == Value(s[WholeEnd(s) + 1..p])
    ensures Parse(s).places == p - WholeEnd(s) - 1
  {
    var w := WholeEnd(s);
    assert s[w + 1..][..p - w - 1] == s[w + 1..p];
    DigitRunUnique(s[w + 1..], p - w - 1);
  }

  /** `DigitRun` is the only length with its three properties. */
  lemma DigitRunUnique(s: string, n: nat)
    requires n <= |s| && AllDigits(s[..n])
    requires n < |s| ==> !IsDigit(s[n])
    ensures DigitRun(s) == n
  {
    var r := DigitRun(s);
    assert forall i :: 0 <= i < n ==> IsDigit(s[i]) by {
      assert forall i :: 0 <= i < n ==> s[i] == s[..n][i];
    }
    assert forall i :: 0 <= i < r ==> IsDigit(s[i]) by {
      assert forall i :: 0 <= i < r ==> s[i] == s[..r][i];
    }
  }

  /** The regular language `-?[0-9]*(\.[0-9]*)?`. */
  predicate IsUnsignedNumeral(t: string) {
    || AllDigits(t)
    || exists j :: 0 <= j < |t| && t[j] == '.' && AllDigits(t[..j]) && AllDigits(t[j + 1..])
  }

  predicate IsNumeral(p: string) {
    if |p| > 0 && p[0] == '-' then IsUnsignedNumeral(p[1..]) else IsUnsignedNumeral(p)
  }

  /** A text matches `-?[0-9]*(\.[0-9]*)?` exactly when `naive` consumes all
      of it. */
  lemma NumeralIffConsumed(p: string)
    ensures IsNumeral(p) <==> Consumed(p) == |p|
  {
    if Consumed(p) == |p| {
      ConsumedIsNumeral(p);
    }
    if IsNumeral(p) {
      NumeralIsConsumed(p);
    }
  }

  lemma ConsumedIsNumeral(p: string)
    requires Consumed(p) == |p|
    ensures IsNumeral(p)
  {
    var k := SignLength(p);
    var t := p[k..];
    var w := WholeEnd(p);
    NumeralSign(p);
    assert t[..w - k] == p[k..w];
    if HasPoint(p) {
      var j := w - k;
      assert t[j] == '.';
      assert t[j + 1..] == p[w + 1..|p|];
      PointNumeral(t, j);
    } else {
      assert t == p[k..w];
    }
  }

  lemma NumeralIsConsumed(p: string)
    requires IsNumeral(p)
    ensures Consumed(p) == |p|
  {
    var t := p[SignLength(p)..];
    NumeralSign(p);
    if AllDigits(t) {
      WholeConsumed(p);
    } else {
      var j :| 0 <= j < |t| && t[j] == '.' && AllDigits(t[..j]) && AllDigits(t[j + 1..]);
      PointConsumed(p, j);
    }
  }

  /** Digits alone after the sign are consumed in full. */
  lemma WholeConsumed(p: string)
    requires AllDigits(p[SignLength(p)..])
    ensures Consumed(p) == |p|
  {
    assert p[SignLength(p)..] == p[SignLength(p)..|p|];
    ParseWhole(p, |p|);
  }

  /** Digits, a point at `j` after the sign, and digits are consumed in
      full. */
  lemma PointConsumed(p: string, j: nat)
    requires var t := p[SignLength(p)..];
      j < |t| && t[j] == '.' && AllDigits(t[..j]) && AllDigits(t[j + 1..])
    ensures Consumed(p) == |p|
  {
    var k := SignLength(p);
    var t := p[k..];
    assert t[..j] == p[k..k + j];
    assert p[k + j] == t[j];
    ParseWhole(p, k + j);
    SliceCut(p, k, |p|);
    assert p[k..][j + 1..] == p[k + j + 1..|p|];
    ParseFraction(p, |p|);
  }

  /** A numeral is a sign, if any, followed by an unsigned numeral. */
  lemma NumeralSign(p: string)
    ensures IsNumeral(p) == IsUnsignedNumeral(p[SignLength(p)..])
  {
    if SignLength(p) == 0 {
      assert p[0..] == p;
    }
  }

  /** Digits, a point and digits make an unsigned numeral. */
  lemma PointNumeral(t: string, j: nat)
    requires j < |t| && t[j] == '.' && AllDigits(t[..j]) && AllDigits(t[j + 1..])
    ensures IsUnsignedNumeral(t)
  {
  }

  /** Cutting the text anywhere at or after the consumed prefix changes
      neither what is consumed nor what is read. */
  lemma ParsePrefix(s: string, m: nat)
    requires Consumed(s) <= m <= |s|
    ensures Consumed(s[..m]) == Consumed(s)
    ensures Parse(s[..m]) == Parse(s)
  {
    var q := s[..m];
    var k := SignLength(s);
    var w := WholeEnd(s);
    WholeEndPrefix(s, m);
    SliceWithin(s, k, w, m);
    if HasPoint(s) {
      assert HasPoint(q);
      FractionPrefix(s, m);
    } else {
      assert !HasPoint(q);
    }
  }

  /** Cutting after the integer digits keeps the sign and where they end. */
  lemma WholeEndPrefix(s: string, m: nat)
    requires WholeEnd(s) <= m <= |s|
    ensures SignLength(s[..m]) == SignLength(s)
    ensures WholeEnd(s[..m]) == WholeEnd(s)
  {
    var q := s[..m];
    var k := SignLength(s);
    assert SignLength(q) == k by {
      if |q| > 0 { assert q[0] == s[0]; }
    }
    SliceCut(s, k, m);
    DigitRunCut(s[k..], m - k);
  }

  /** Cutting after the fraction digits keeps where they end. */
  lemma FractionPrefix(s: string, m: nat)
    requires HasPoint(s) && Consumed(s) <= m <= |s|
    requires SignLength(s[..m]) == SignLength(s) && WholeEnd(s[..m]) == WholeEnd(s)
    ensures HasPoint(s[..m])
    ensures Consumed(s[..m]) == Consumed(s)
    ensures s[..m][WholeEnd(s) + 1..Consumed(s)] == s[WholeEnd(s) + 1..Consumed(s)]
  {
    var q := s[..m];
    var w := WholeEnd(s);
    assert q[w] == s[w];
    SliceCut(s, w + 1, m);
    DigitRunCut(s[w + 1..], m - w - 1);
    SliceWithin(s, w + 1, Consumed(s), m);
  }

  /** A slice inside the cut part is the same slice of the whole text. */
  lemma SliceWithin(s: string, i: nat, j: nat, m: nat)
    requires i <= j <= m <= |s|
    ensures s[..m][i..j] == s[i..j]
  {
  }

  /** Slicing commutes with cutting. */
  lemma SliceCut(s: string, i: nat, m: nat)
    requires i <= m <= |s|
    ensures s[..m][i..] == s[i..][..m - i]
  {
  }

  /** Cutting a text after its leading digits keeps them. */
  lemma DigitRunCut(t: string, m: nat)
    requires DigitRun(t) <= m <= |t|
    ensures DigitRun(t[..m]) == DigitRun(t)
  {
    var n := DigitRun(t);
    assert t[..m][..n] == t[..n];
    if n < m {
      assert t[..m][n] == t[n];
    }
    DigitRunUnique(t[..m], n);
  }

  /** `naive` depends only on the longest prefix of its input that matches
      `-?[0-9]*(\.[0-9]*)?`. */
  lemma DecodeLongestPrefix(s: string)
    ensures IsNumeral(s[..Consumed(s)])
    ensures forall k :: Consumed(s) < k <= |s| ==> !IsNumeral(s[..k])
    ensures Decode(s) == Decode(s[..Consumed(s)])
  {
    var l := Consumed(s);
    ParsePrefix(s, l);
    NumeralIffConsumed(s[..l]);
    forall k | l < k <= |s|
      ensures !IsNumeral(s[..k])
    {
      ParsePrefix(s, k);
      NumeralIffConsumed(s[..k]);
    }
  }

  function SignText(negative: bool): string {
    if negative then "-" else ""
  }

  /** Reading a well-formed decimal with a fraction part gives its exact
      value: the integer digits plus the fraction digits over 10^places. */
  lemma DecodeDecimal(negative: bool, whole: string, fraction: string)
    requires AllDigits(whole) && AllDigits(fraction)
    ensures Parse(SignText(negative) + whole + "." + fraction)
         == Numeral(negative, Value(whole), Value(fraction), |fraction|)
  {
    var s := SignText(negative) + whole + "." + fraction;
    DecimalLayout(SignText(negative), whole, fraction);
    assert SignLength(s) == |SignText(negative)| by {
      if |whole| > 0 { assert IsDigit(whole[0]); }
    }
    ParseDecimal(s, |SignText(negative)|, whole, fraction);
  }

  /** Where the parts of `a + w + "." + f` lie. */
  lemma DecimalLayout(a: string, w: string, f: string)
    ensures var s := a + w + "." + f;
      && s[|a|..|a| + |w|] == w
      && s[|a| + |w|] == '.'
      && s[|a| + |w| + 1..|s|] == f
  {
    var s := a + w + "." + f;
    assert s[|a|..|a| + |w|] == w by {
      assert forall i :: 0 <= i < |w| ==> s[|a| + i] == w[i];
    }
    assert s[|a| + |w| + 1..|s|] == f by {
      assert forall i :: 0 <= i < |f| ==> s[|a| + |w| + 1 + i] == f[i];
    }
  }

  lemma ParseDecimal(s: string, k: nat, whole: string, fraction: string)
    requires AllDigits(whole) && AllDigits(fraction)
    requires SignLength(s) == k && k + |whole| < |s|
    requires s[k..k + |whole|] == whole && s[k + |whole|] == '.' && s[k + |whole| + 1..|s|] == fraction
    ensures Parse(s) == Numeral(k == 1, Value(whole), Value(fraction), |fraction|)
  {
    var w := k + |whole|;
    ParseWhole(s, w);
    ParseFraction(s, |s|);
  }

  /** Reading a well-formed integer gives its value. */
  lemma DecodeInteger(negative: bool, whole: string)
    requires AllDigits(whole)
    ensures Parse(SignText(negative) + whole) == Numeral(negative, Value(whole), 0, 0)
  {
    var s := SignText(negative) + whole;
    var k := |SignText(negative)|;
    assert SignLength(s) == k by {}
    assert s[k..|s|] == whole by {}
    ParseWhole(s, |s|);
  }

  /** A leading '-' negates the value of the rest, unless the rest starts
      with a second '-' (then nothing is read at all). */
  lemma DecodeNegation(t: string)
    requires |t| == 0 || t[0] != '-'
    ensures Decode("-" + t) == -Decode(t)
  {
    var s := "-" + t;
    assert s[1..] == t;
    assert SignLength(t) == 0;
    var w := WholeEnd(t);
    assert WholeEnd(s) == w + 1;
    assert s[1..w + 1] == t[0..w];
    if HasPoint(t) {
      assert HasPoint(s);
      assert s[w + 2..] == t[w + 1..];
      assert Consumed(s) == Consumed(t) + 1;
      assert s[w + 2..Consumed(s)] == t[w + 1..Consumed(t)];
    }
  }

  /** "-3.250" is read as -3.25. */
  lemma DecodeNegativeExample()
    ensures Decode("-3.250") == -3.25
  {
    assert "-3.250" == SignText(true) + "3" + "." + "250";
    DecodeDecimal(true, "3", "250");
    ValueOf250();
    assert Pow10(3) == 1000;
    assert Value("3") == 3;
    assert NumeralValue(Numeral(true, 3, 250, 3)) == -3.25;
  }

  lemma ValueOf250()
    ensures Value("250") == 250
  {
    assert "250"[..2] == "25";
    assert "25"[..1] == "2";
  }

  /** "12x5" is read as 12: reading stops at the first non-digit. */
  lemma DecodeStopsAtGarbage()
    ensures Decode("12x5") == 12.0
  {
    var s := "12x5";
    assert s[0..2] == "12" by {}
    ParseWhole(s, 2);
    assert Value("12") == 12 by {
      assert "12"[..1] == "1";
    }
  }

  /** Two leading '-' read as zero: the first is taken as the sign and the
      second stops the digit loop, so negation of the rest fails here. */
  lemma DecodeDoubleDash()
    ensures Decode("--5") == 0.0
    ensures Decode("-" + "-5") != -Decode("-5")
  {
    assert Decode("--5") == 0.0 by {
      assert "--5"[1..1] == "";
      ParseWhole("--5", 1);
    }
    DecodeFive();
    assert "-" + "-5" == "--5";
  }

  /** "5" and "-5" read as 5 and -5. */
  lemma DecodeFive()
    ensures Decode("5") == 5.0 && Decode("-5") == -5.0
  {
    assert "5"[0..1] == "5";
    ParseWhole("5", 1);
    assert "-" + "5" == "-5";
    DecodeNegation("5");
  }

  /** A leading '+' is not understood, so "+5" is read as 0, like the empty
      text. */
  lemma DecodePlusIsZero()
    ensures Decode("+5") == 0.0
    ensures Decode("") == 0.0
  {
    var s := "+5";
    assert s[0..0] == "" by {}
    ParseWhole(s, 0);
  }
}

=== FILE: program.dfy ===
/** The whole program: `main` parses the command line, the `file_reader`
    constructor opens the named file and, when that works, `readFile` reads
    it line by line with `std::getline`. The file system is a parameter:
    `files(name)` is the content of the file, or `None` when it cannot be
    opened. */
module Program {
  import opened Text
  import opened Executor
  import opened Args
  import opened Reader

  /** `std::getline` in a loop: the text between newlines, without the
      newlines; a final newline does not start another line, and text after
      the last newline is a line of its own. */
  function Lines(content: string): (ls: seq<string>)
    ensures forall k :: 0 <= k < |ls| ==> '\n' !in ls[k]
    ensures |content| > 0 ==> |ls| > 0
    decreases |content|
  {
    if |content| == 0 then []
    else
      var k := First(content, '\n');
      FirstIsFirst(content, '\n');
      assert forall c :: c in content[..k] ==> c != '\n';
      if k == |content| then [content]
      else [content[..k]] + Lines(content[k + 1..])
  }

  /** Lines written out, each followed by a newline. */
  function Join(ls: seq<string>): string {
    if |ls| == 0 then "" else ls[0] + "\n" + Join(ls[1..])
  }

  /** Lines without newlines come back from their text unchanged. */
  lemma {:induction false} LinesOfJoin(ls: seq<string>)
    requires forall k :: 0 <= k < |ls| ==> '\n' !in ls[k]
    ensures Lines(Join(ls)) == ls
  {
    if |ls| > 0 {
      var c := Join(ls);
      var n := |ls[0]|;
      assert c == ls[0] + "\n" + Join(ls[1..]);
      assert forall i :: 0 <= i < n ==> c[i] == ls[0][i];
      FirstAt(c, '\n', n);
      assert c[..n] == ls[0];
      assert c[n + 1..] == Join(ls[1..]);
      LinesOfJoin(ls[1..]);
    }
  }

  /** Writing the lines back gives the text, with a final newline added
      when it had none. */
  lemma {:induction false} JoinOfLines(content: string)
    ensures Join(Lines(content))
         == if |content| == 0 || content[|content| - 1] == '\n' then content else content + "\n"
    decreases |content|
  {
    if |content| > 0 {
      var k := First(content, '\n');
      FirstIsFirst(content, '\n');
      if k == |content| {
        assert Lines(content) == [content];
        assert Join([content]) == content + "\n" + Join([]);
      } else {
        var rest := content[k + 1..];
        assert Lines(content) == [content[..k]] + Lines(rest);
        JoinOfLines(rest);
        assert content == content[..k] + "\n" + rest;
        if |rest| > 0 {
          assert rest[|rest| - 1] == content[|content| - 1];
        }
      }
    }
  }

  /** What running the program amounts to. */
  datatype Ending = ShowUsage | OpenFailed | Finished(session: Session)

  /** `main` with the `file_reader` constructor: the usage line without a
      file name, "Error Opening file." when the file cannot be opened, and
      otherwise `readFile` on its lines. */
  function Launch(argv: seq<string>, files: string -> Option<string>, atof: string -> real): (r: Ending)
    ensures r.ShowUsage? <==> MainAction(argv).Usage?
    ensures r.OpenFailed? <==> MainAction(argv).Read? && files(MainAction(argv).file).None?
    ensures r.Finished? ==>
      forall k :: 0 <= k < |r.session.report| ==> '\n' !in r.session.report[k].text
  {
    match MainAction(argv)
    case Usage => ShowUsage
    case Read(file, _) =>
      match files(file)
      case None => OpenFailed
      case Some(content) => Finished(ReadFile(Lines(content), atof))
  }

  /** Verbose mode changes only the traces, never what is read. In
      `readFile` the flag only guards trace output (src/file_reader.hpp:108
      and 149-214), so `Launch` drops it; the lemma therefore holds by
      construction once `OneFile` and `FileThenOptions` show that both
      command lines name the same file. */
  lemma VerboseIrrelevant(program: string, name: string, options: string,
                          files: string -> Option<string>, atof: string -> real)
    requires '-' !in name && name != ""
    ensures Launch([program, name, "-" + options], files, atof) == Launch([program, name], files, atof)
  {
    FileThenOptions(program, name, options);
    OneFile(program, name);
  }
}

=== FILE: scanner.dfy ===
/** The line scanner of `readFile`: one left-to-right pass over a line that
    fills four text buffers (name, type, value, argument) and three sticky
    flags (':' seen, '=' seen, '(' seen), while counting '/' characters.
    Scanning stops at the first ';', or at the first character reached once
    two '/' have been counted anywhere in the line. */
module Scanner {
  import opened Text

  /** Characters that never reach a buffer: they are skipped, counted, or
      only set a flag. */
  predicate IsSpecial(c: char) {
    c == ' ' || c == ';' || c == '/' || c == '(' || c == ')' || c == ':' || c == '='
  }

  predicate Clean(s: string) {
    forall i :: 0 <= i < |s| ==> !IsSpecial(s[i])
  }

  /** What one line leaves behind: the four buffers and the three flags. */
  datatype Fragment = Fragment(
    name: string,
    typeText: string,
    value: string,
    arg: string,
    sawColon: bool,
    sawEquals: bool,
    sawParen: bool)

  const Blank := Fragment("", "", "", "", false, false, false)

  /** The scanner's loop state: the fragment so far, the '/' counter, and
      whether the loop has broken out. */
  datatype ScanState = ScanState(frag: Fragment, slashes: nat, stopped: bool)

  const Start := ScanState(Blank, 0, false)

  /** An ordinary character goes to the first buffer whose mode is on, in
      the order value, type, argument, name. */
  function Put(f: Fragment, c: char): Fragment {
    if f.sawEquals then f.(value := f.value + [c])
    else if f.sawColon then f.(typeText := f.typeText + [c])
    else if f.sawParen then f.(arg := f.arg + [c])
    else f.(name := f.name + [c])
  }

  /** The effect of one character on the fragment once the loop has decided
      not to stop and the character is not a counted '/'. ')' is consumed
      without effect (`readFile`'s `p_open` is never read). */
  function Absorb(f: Fragment, c: char): Fragment {
    if c == '(' then f.(sawParen := true)
    else if c == ':' then f.(sawColon := true)
    else if c == '=' then f.(sawEquals := true)
    else if IsSpecial(c) then f
    else Put(f, c)
  }

  /** One turn of the scanning loop. */
  function Step(st: ScanState, c: char): ScanState {
    if st.stopped then st
    else if c == ';' || st.slashes >= 2 then st.(stopped := true)
    else if c == '/' then st.(slashes := st.slashes + 1)
    else st.(frag := Absorb(st.frag, c))
  }

  /** The loop run over `s`. The buffers only ever hold ordinary
      characters, and a buffer whose mode was never entered stays empty. */
  function Fold(s: string): (st: ScanState)
    ensures Clean(st.frag.name) && Clean(st.frag.typeText)
    ensures Clean(st.frag.value) && Clean(st.frag.arg)
    ensures !st.frag.sawEquals ==> st.frag.value == []
    ensures !st.frag.sawColon ==> st.frag.typeText == []
    ensures !st.frag.sawParen ==> st.frag.arg == []
    ensures st.slashes <= 2
  {
    if |s| == 0 then Start
    else
      var st := Fold(s[..|s| - 1]);
      StepKeeps(st, s[|s| - 1]);
      Step(st, s[|s| - 1])
  }

  lemma CleanAppend(s: string, c: char)
    requires Clean(s) && !IsSpecial(c)
    ensures Clean(s + [c])
  {
  }

  /** One turn of the loop keeps the facts `Fold` states. */
  lemma StepKeeps(st: ScanState, c: char)
    requires Clean(st.frag.name) && Clean(st.frag.typeText)
    requires Clean(st.frag.value) && Clean(st.frag.arg)
    requires !st.frag.sawEquals ==> st.frag.value == []
    requires !st.frag.sawColon ==> st.frag.typeText == []
    requires !st.frag.sawParen ==> st.frag.arg == []
    requires st.slashes <= 2
    ensures var r := Step(st, c);
      && Clean(r.frag.name) && Clean(r.frag.typeText)
      && Clean(r.frag.value) && Clean(r.frag.arg)
      && (!r.frag.sawEquals ==> r.frag.value == [])
      && (!r.frag.sawColon ==> r.frag.typeText == [])
      && (!r.frag.sawParen ==> r.frag.arg == [])
      && r.slashes <= 2
  {
    var f := st.frag;
    if !st.stopped && c != ';' && st.slashes < 2 && c != '/' && !IsSpecial(c) {
      if f.sawEquals {
        CleanAppend(f.value, c);
      } else if f.sawColon {
        CleanAppend(f.typeText, c);
      } else if f.sawParen {
        CleanAppend(f.arg, c);
      } else {
        CleanAppend(f.name, c);
      }
    }
  }

  /** The fragment one line produces. No buffer holds a space, ';', '/',
      '(', ')', ':' or '='; an empty line gives empty buffers and no flags. */
  function Scan(line: string): (f: Fragment)
    ensures Clean(f.name) && Clean(f.typeText) && Clean(f.value) && Clean(f.arg)
    ensures |line| == 0 ==> f == Blank
  {
    Fold(line).frag
  }

  // ---------------------------------------------------------------------
  // Where scanning stops

  /** The loop breaks on reaching index `i`: the character there is ';', or
      two '/' lie before it. */
  predicate StopsAt(line: string, i: nat) {
    i < |line| && (line[i] == ';' || Count(line[..i], '/') >= 2)
  }

  function HaltFrom(line: string, i: nat): (h: nat)
    requires i <= |line|
    ensures i <= h <= |line|
    ensures h < |line| ==> StopsAt(line, h)
    ensures forall j :: i <= j < h ==> !StopsAt(line, j)
    decreases |line| - i
  {
    if i == |line| || StopsAt(line, i) then i else HaltFrom(line, i + 1)
  }

  /** The index at which scanning stops: the first stopping index, or the
      length of the line. */
  function Halt(line: string): (h: nat)
    ensures h <= |line|
    ensures h < |line| ==> StopsAt(line, h)
    ensures forall j :: 0 <= j < h ==> !StopsAt(line, j)
  {
    HaltFrom(line, 0)
  }

  /** `Halt` is the only index with its three properties. */
  lemma HaltUnique(line: string, h: nat)
    requires h <= |line|
    requires h < |line| ==> StopsAt(line, h)
    requires forall j :: 0 <= j < h ==> !StopsAt(line, j)
    ensures Halt(line) == h
  {
  }

  // ---------------------------------------------------------------------
  // A reference description of the buffers

  /** The ordinary characters of `s`, in order. */
  function Keep(s: string): string {
    if |s| == 0 then []
    else Keep(s[..|s| - 1]) + (if IsSpecial(s[|s| - 1]) then [] else [s[|s| - 1]])
  }

  /** The buffers described by position: with o, c and e the first '(', ':'
      and '=', the name holds the ordinary characters before all three, the
      argument those after o and before c and e, the type those after c and
      before e, and the value every ordinary character after e. */
  function Reference(p: string): Fragment {
    Fragment(RefName(p), RefType(p), RefValue(p), RefArg(p),
             First(p, ':') < |p|, First(p, '=') < |p|, First(p, '(') < |p|)
  }

  function RefName(p: string): string {
    Keep(p[..Min(First(p, '('), Min(First(p, ':'), First(p, '=')))])
  }

  function RefArg(p: string): string {
    var o := First(p, '(');
    var m := Min(First(p, ':'), First(p, '='));
    if o < m then Keep(p[o + 1..m]) else []
  }

  function RefType(p: string): string {
    var c := First(p, ':');
    var e := First(p, '=');
    if c < e then Keep(p[c + 1..e]) else []
  }

  function RefValue(p: string): string {
    var e := First(p, '=');
    if e < |p| then Keep(p[e + 1..]) else []
  }

  lemma KeepAppend(s: string, x: char)
    ensures Keep(s + [x]) == Keep(s) + (if IsSpecial(x) then [] else [x])
  {
    assert (s + [x])[..|s|] == s;
  }

  /** Slices of `p + [x]`, each in the form the reference buffers use. */
  lemma SliceAppend(p: string, x: char, i: nat, j: nat)
    requires i <= j <= |p|
    ensures (p + [x])[i..j] == p[i..j]
  {
  }

  lemma SliceAppendEnd(p: string, x: char, i: nat)
    requires i <= |p|
    ensures (p + [x])[i..|p| + 1] == p[i..|p|] + [x]
  {
  }

  lemma SuffixAppend(p: string, x: char, i: nat)
    requires i <= |p|
    ensures (p + [x])[i..] == p[i..] + [x]
  {
  }

  lemma PrefixAppend(p: string, x: char, j: nat)
    requires j <= |p|
    ensures (p + [x])[..j] == p[..j]
    ensures (p + [x])[..|p| + 1] == p[..|p|] + [x]
  {
  }

  /** Whether a character appended to `p` lands in the value, type,
      argument or name buffer: it must be ordinary, and it goes to the
      first buffer whose mode `p` has entered. */
  predicate ToValue(p: string, x: char) {
    !IsSpecial(x) && First(p, '=') < |p|
  }

  predicate ToType(p: string, x: char) {
    !IsSpecial(x) && First(p, '=') == |p| && First(p, ':') < |p|
  }

  predicate ToArg(p: string, x: char) {
    !IsSpecial(x) && First(p, '=') == |p| && First(p, ':') == |p| && First(p, '(') < |p|
  }

  predicate ToName(p: string, x: char) {
    !IsSpecial(x) && First(p, '=') == |p| && First(p, ':') == |p| && First(p, '(') == |p|
  }

  lemma ValueStep(p: string, x: char)
    ensures RefValue(p + [x])
         == if ToValue(p, x) then RefValue(p) + [x] else RefValue(p)
  {
    FirstAppend(p, x, '=');
    var e := First(p, '=');
    if e < |p| {
      SuffixAppend(p, x, e + 1);
      KeepAppend(p[e + 1..], x);
    }
  }

  lemma TypeStep(p: string, x: char)
    ensures RefType(p + [x])
         == if ToType(p, x) then RefType(p) + [x] else RefType(p)
  {
    var n := |p|;
    FirstAppend(p, x, ':');
    FirstAppend(p, x, '=');
    var c, e := First(p, ':'), First(p, '=');
    if c < e {
      if e < n || x == '=' {
        SliceAppend(p, x, c + 1, e);
      } else {
        SliceAppendEnd(p, x, c + 1);
        KeepAppend(p[c + 1..n], x);
      }
    }
  }

  lemma ArgStep(p: string, x: char)
    ensures RefArg(p + [x])
         == if ToArg(p, x) then RefArg(p) + [x] else RefArg(p)
  {
    FirstAppend(p, x, '(');
    FirstAppend(p, x, ':');
    FirstAppend(p, x, '=');
    if First(p, '(') < Min(First(p, ':'), First(p, '=')) {
      ArgStepOpen(p, x);
    }
  }

  /** `ArgStep` once a '(' precedes every ':' and '='. */
  lemma ArgStepOpen(p: string, x: char)
    requires First(p, '(') < Min(First(p, ':'), First(p, '='))
    ensures RefArg(p + [x])
         == if ToArg(p, x) then RefArg(p) + [x] else RefArg(p)
  {
    var q := p + [x];
    var o, m := First(p, '('), Min(First(p, ':'), First(p, '='));
    if m < |p| || x == ':' || x == '=' {
      ArgStepClosed(p, x, o, m);
    } else {
      ArgStepGrow(p, x, o);
    }
  }

  /** `ArgStep` when the argument buffer is already closed, or `x` closes it. */
  lemma ArgStepClosed(p: string, x: char, o: nat, m: nat)
    requires o == First(p, '(') && m == Min(First(p, ':'), First(p, '=')) && o < m
    requires m < |p| || x == ':' || x == '='
    ensures RefArg(p + [x]) == RefArg(p)
  {
    var q := p + [x];
    assert First(q, '(') == o && Min(First(q, ':'), First(q, '=')) == m by {
      FirstAppend(p, x, '(');
      FirstAppend(p, x, ':');
      FirstAppend(p, x, '=');
    }
    RefArgSlice(q, o, m);
    RefArgSlice(p, o, m);
    SliceAppend(p, x, o + 1, m);
  }

  /** `ArgStep` when the argument buffer is open and `x` extends it. */
  lemma ArgStepGrow(p: string, x: char, o: nat)
    requires o < |p| && First(p, '(') == o && First(p, ':') == |p| && First(p, '=') == |p|
    requires x != ':' && x != '='
    ensures RefArg(p + [x]) == RefArg(p) + (if IsSpecial(x) then [] else [x])
  {
    ArgAfterGrow(p, x, o);
    RefArgSlice(p, o, |p|);
    KeepAppend(p[o + 1..|p|], x);
  }

  lemma ArgAfterGrow(p: string, x: char, o: nat)
    requires o < |p| && First(p, '(') == o && First(p, ':') == |p| && First(p, '=') == |p|
    requires x != ':' && x != '='
    ensures RefArg(p + [x]) == Keep(p[o + 1..|p|] + [x])
  {
    var q := p + [x];
    assert First(q, '(') == o && Min(First(q, ':'), First(q, '=')) == |q| by {
      FirstAppend(p, x, '(');
      FirstAppend(p, x, ':');
      FirstAppend(p, x, '=');
    }
    RefArgSlice(q, o, |q|);
    SliceAppendEnd(p, x, o + 1);
  }

  /** The argument buffer when a '(' at `o` comes before the first ':' or
      '=' at `m`. */
  lemma RefArgSlice(p: string, o: nat, m: nat)
    requires o < m <= |p| && First(p, '(') == o && Min(First(p, ':'), First(p, '=')) == m
    ensures RefArg(p) == Keep(p[o + 1..m])
  {
  }

  lemma NameStep(p: string, x: char)
    ensures RefName(p + [x])
         == if ToName(p, x) then RefName(p) + [x] else RefName(p)
  {
    var n := |p|;
    FirstAppend(p, x, '(');
    FirstAppend(p, x, ':');
    FirstAppend(p, x, '=');
    var k := Min(First(p, '('), Min(First(p, ':'), First(p, '=')));
    PrefixAppend(p, x, k);
    if k == n {
      KeepAppend(p[..n], x);
    }
  }

  /** Appending a character changes the reference buffers exactly as the
      scanner's `Absorb` does. */
  lemma ReferenceStep(p: string, x: char)
    ensures Reference(p + [x]) == Absorb(Reference(p), x)
  {
    FirstAppend(p, x, '(');
    FirstAppend(p, x, ':');
    FirstAppend(p, x, '=');
    ValueStep(p, x);
    TypeStep(p, x);
    ArgStep(p, x);
    NameStep(p, x);
  }

  // ---------------------------------------------------------------------
  // The scanner agrees with the reference description

  /** A turn of the loop that neither stops nor counts a '/' extends the
      reference description by one character. */
  lemma StepAdvance(p: string, x: char)
    requires x != ';' && Count(p, '/') < 2
    ensures Step(ScanState(Reference(p), Count(p, '/'), false), x)
         == ScanState(Reference(p + [x]), Count(p + [x], '/'), false)
  {
    ReferenceStep(p, x);
    CountAppend(p, x, '/');
  }

  /** Before the stopping index the loop state is the reference description
      of what has been read so far; past it, the loop has stopped with the
      description of everything before the stopping index. */
  lemma {:induction false} FoldPrefix(line: string, k: nat)
    requires k <= |line|
    ensures k <= Halt(line) ==>
      Fold(line[..k]) == ScanState(Reference(line[..k]), Count(line[..k], '/'), false)
    ensures k > Halt(line) ==>
      Fold(line[..k]) == ScanState(Reference(line[..Halt(line)]), Count(line[..Halt(line)], '/'), true)
  {
    if k == 0 {
      assert Reference([]) == Blank;
    } else {
      FoldPrefix(line, k - 1);
      FoldNext(line, k);
      var p := line[..k - 1];
      var x := line[k - 1];
      var h := Halt(line);
      if k - 1 < h {
        assert !StopsAt(line, k - 1);
        StepAdvance(p, x);
      } else if k - 1 == h {
        StopHere(line, k);
      } else {
        assert Fold(p).stopped;
      }
    }
  }

  /** One more character of the line is one more turn of the loop. */
  lemma FoldNext(line: string, k: nat)
    requires 0 < k <= |line|
    ensures line[..k] == line[..k - 1] + [line[k - 1]]
    ensures Fold(line[..k]) == Step(Fold(line[..k - 1]), line[k - 1])
  {
    assert line[..k][..k - 1] == line[..k - 1];
  }

  /** The turn at the stopping index breaks out of the loop. */
  lemma StopHere(line: string, k: nat)
    requires 0 < k <= |line| && k - 1 == Halt(line)
    ensures var p := line[..k - 1];
      Step(ScanState(Reference(p), Count(p, '/'), false), line[k - 1])
      == ScanState(Reference(p), Count(p, '/'), true)
  {
    assert StopsAt(line, k - 1);
  }

  /** The fragment of a line is the reference description of the line up to
      where scanning stops: the name holds exactly the ordinary characters
      before the first '(', ':' or '=', the value every ordinary character
      after the first '=', and each flag says whether its character occurs. */
  lemma ScanIsReference(line: string)
    ensures Scan(line) == Reference(line[..Halt(line)])
  {
    FoldPrefix(line, |line|);
    assert line[..|line|] == line;
  }

  /** Two lines that agree up to and including the stopping character of
      the first stop at the same index. */
  lemma HaltAgrees(line: string, other: string)
    requires Halt(line) < |line|
    requires Halt(line) < |other| && other[..Halt(line) + 1] == line[..Halt(line) + 1]
    ensures Halt(other) == Halt(line)
  {
    var h := Halt(line);
    forall j | 0 <= j <= h
      ensures StopsAt(other, j) == StopsAt(line, j)
    {
      assert other[j] == other[..h + 1][j];
      assert other[..j] == other[..h + 1][..j];
      assert line[..j] == line[..h + 1][..j];
    }
    HaltUnique(other, h);
  }

  /** Nothing after the character at which scanning stops affects the
      fragment. */
  lemma ScanIgnoresRest(line: string, other: string)
    requires Halt(line) < |line|
    requires Halt(line) < |other| && other[..Halt(line) + 1] == line[..Halt(line) + 1]
    ensures Scan(other) == Scan(line)
  {
    var h := Halt(line);
    HaltAgrees(line, other);
    assert other[..h] == line[..h] by {
      assert other[..h] == other[..h + 1][..h];
      assert line[..h] == line[..h + 1][..h];
    }
    ScanIsReference(line);
    ScanIsReference(other);
  }

  // ---------------------------------------------------------------------
  // The three statement forms

  /** Dropping special characters leaves an ordinary text unchanged. */
  lemma {:induction false} KeepClean(s: string)
    requires Clean(s)
    ensures Keep(s) == s
  {
    if |s| > 0 {
      KeepClean(s[..|s| - 1]);
      assert s[..|s| - 1] + [s[|s| - 1]] == s;
    }
  }

  lemma {:induction false} KeepConcat(a: string, b: string)
    ensures Keep(a + b) == Keep(a) + Keep(b)
  {
    if |b| > 0 {
      var b' := b[..|b| - 1];
      var x := b[|b| - 1];
      KeepConcat(a, b');
      assert a + b == (a + b') + [x];
      assert b == b' + [x];
      KeepAppend(a + b', x);
      KeepAppend(b', x);
    } else {
      assert a + b == a;
    }
  }

  /** Ordinary text between blanks is kept as it is. */
  lemma KeepPadded(s: string)
    requires Clean(s)
    ensures Keep(" " + s + " ") == s
    ensures Keep(" " + s) == s
  {
    KeepLeftPadded(s);
    KeepAppend(" " + s, ' ');
  }

  lemma KeepLeftPadded(s: string)
    requires Clean(s)
    ensures Keep(" " + s) == s
  {
    KeepConcat(" ", s);
    KeepClean(s);
    assert Keep(" ") == [] by {
      assert " "[..0] == [];
    }
  }

  /** A line whose only ';' is its last character, and that has no '/',
      is scanned up to that ';'. */
  lemma HaltAtEnd(body: string)
    requires forall i :: 0 <= i < |body| ==> body[i] != ';' && body[i] != '/'
    ensures Scan(body + ";") == Reference(body)
  {
    var line := body + ";";
    forall j | 0 <= j < |body|
      ensures !StopsAt(line, j)
    {
      CountAbsent(line[..j], '/');
    }
    HaltUnique(line, |body|);
    ScanIsReference(line);
    assert line[..|body|] == body;
  }

  /** Where the special characters of a declaration body lie. */
  lemma DeclarationMarks(n: string, t: string, v: string)
    requires Clean(n) && Clean(t) && Clean(v)
    ensures var body := n + ": " + t + " = " + v;
      && First(body, '(') == |body|
      && First(body, ':') == |n|
      && First(body, '=') == |n| + |t| + 3
  {
    var body := n + ": " + t + " = " + v;
    var e := |n| + |t| + 3;
    assert forall i :: 0 <= i < |n| ==> body[i] == n[i];
    assert forall i :: 0 <= i < |t| ==> body[|n| + 2 + i] == t[i];
    assert forall i :: 0 <= i < |v| ==> body[e + 2 + i] == v[i];
    FirstAt(body, '(', |body|);
    FirstAt(body, ':', |n|);
    FirstAt(body, '=', e);
  }

  /** `n: t = v;` fills the name, type and value buffers. */
  lemma ScanDeclaration(n: string, t: string, v: string)
    requires Clean(n) && Clean(t) && Clean(v)
    ensures Scan(n + ": " + t + " = " + v + ";") == Fragment(n, t, v, "", true, true, false)
  {
    var body := n + ": " + t + " = " + v;
    assert n + ": " + t + " = " + v + ";" == body + ";";
    HaltAtEnd(body);
    DeclarationMarks(n, t, v);
    DeclarationFields(n, t, v);
  }

  lemma DeclarationFields(n: string, t: string, v: string)
    requires Clean(n) && Clean(t) && Clean(v)
    ensures var body := n + ": " + t + " = " + v;
      RefName(body) == n && RefType(body) == t && RefValue(body) == v
  {
    DeclarationMarks(n, t, v);
    DeclarationName(n, t, v);
    DeclarationType(n, t, v);
    DeclarationValue(n, t, v);
  }

  lemma DeclarationName(n: string, t: string, v: string)
    requires Clean(n) && Clean(t) && Clean(v)
    ensures RefName(n + ": " + t + " = " + v) == n
  {
    var body := n + ": " + t + " = " + v;
    DeclarationMarks(n, t, v);
    assert body[..|n|] == n;
    KeepClean(n);
  }

  lemma DeclarationType(n: string, t: string, v: string)
    requires Clean(n) && Clean(t) && Clean(v)
    ensures RefType(n + ": " + t + " = " + v) == t
  {
    var body := n + ": " + t + " = " + v;
    DeclarationMarks(n, t, v);
    assert body[|n| + 1..|n| + |t| + 3] == " " + t + " ";
    KeepPadded(t);
  }

  lemma DeclarationValue(n: string, t: string, v: string)
    requires Clean(n) && Clean(t) && Clean(v)
    ensures RefValue(n + ": " + t + " = " + v) == v
  {
    var body := n + ": " + t + " = " + v;
    DeclarationMarks(n, t, v);
    assert body[|n| + |t| + 4..] == " " + v;
    KeepPadded(v);
  }

  lemma AssignmentMarks(n: string, v: string)
    requires Clean(n) && Clean(v)
    ensures var body := n + " = " + v;
      && First(body, '(') == |body|
      && First(body, ':') == |body|
      && First(body, '=') == |n| + 1
  {
    var body := n + " = " + v;
    assert forall i :: 0 <= i < |n| ==> body[i] == n[i];
    assert forall i :: 0 <= i < |v| ==> body[|n| + 3 + i] == v[i];
    FirstAt(body, '(', |body|);
    FirstAt(body, ':', |body|);
    FirstAt(body, '=', |n| + 1);
  }

  /** `n = v;` fills the name and value buffers only. */
  lemma ScanAssignment(n: string, v: string)
    requires Clean(n) && Clean(v)
    ensures Scan(n + " = " + v + ";") == Fragment(n, "", v, "", false, true, false)
  {
    var body := n + " = " + v;
    assert n + " = " + v + ";" == body + ";";
    HaltAtEnd(body);
    AssignmentMarks(n, v);
    var e := |n| + 1;
    assert RefName(body) == n by {
      assert body[..e] == n + " ";
      KeepConcat(n, " ");
      KeepClean(n);
    }
    assert RefValue(body) == v by {
      assert body[e + 1..] == " " + v;
      KeepPadded(v);
    }
  }

  /** `n(a);` is a call: name and argument buffers, and the '(' flag. */
  lemma ScanCall(n: string, a: string)
    requires Clean(n) && Clean(a)
    ensures Scan(n + "(" + a + ");") == Fragment(n, "", "", a, false, false, true)
  {
    var body := n + "(" + a + ")";
    assert n + "(" + a + ");" == body + ";";
    HaltAtEnd(body);
    CallMarks(n, a);
    CallFields(n, a);
  }

  lemma CallMarks(n: string, a: string)
    requires Clean(n) && Clean(a)
    ensures var body := n + "(" + a + ")";
      && First(body, '(') == |n|
      && First(body, ':') == |body|
      && First(body, '=') == |body|
  {
    var body := n + "(" + a + ")";
    assert forall i :: 0 <= i < |n| ==> body[i] == n[i];
    assert forall i :: 0 <= i < |a| ==> body[|n| + 1 + i] == a[i];
    FirstAt(body, '(', |n|);
    FirstAt(body, ':', |body|);
    FirstAt(body, '=', |body|);
  }

  lemma CallFields(n: string, a: string)
    requires Clean(n) && Clean(a)
    ensures var body := n + "(" + a + ")";
      RefName(body) == n && RefArg(body) == a && RefType(body) == [] && RefValue(body) == []
  {
    var body := n + "(" + a + ")";
    CallMarks(n, a);
    assert RefName(body) == n by {
      assert body[..|n|] == n;
      KeepClean(n);
    }
    assert RefArg(body) == a by {
      assert body[|n| + 1..|body|] == a + ")";
      KeepConcat(a, ")");
      KeepClean(a);
      assert Keep(")") == [];
    }
  }

}

=== FILE: scenarios.dfy ===
/** Short programs and what `readFile` makes of them, from the scanner
    through the executor to the recorded codes and the written output. */
module Scenarios {
  import opened Scanner
  import opened Executor
  import opened Diagnostics
  import opened Reader
  import CLib
  import Naive

  /** The three kinds of statement line. */
  function Declaration(n: string, t: string, v: string): string {
    n + ": " + t + " = " + v + ";"
  }

  function Assignment(n: string, v: string): string {
    n + " = " + v + ";"
  }

  function PrintCall(n: string): string {
    "print" + "(" + n + ");"
  }

  /** The run over a file of one, two or three lines, line by line. */
  lemma RunOne(a: string, atof: string -> real)
    ensures Run([a], atof) == Record(Begin, 0, a, atof)
  {
    assert [a][..0] == [];
  }

  lemma RunTwo(a: string, b: string, atof: string -> real)
    ensures Run([a, b], atof) == Record(Record(Begin, 0, a, atof), 1, b, atof)
  {
    assert [a, b][..1] == [a];
    RunOne(a, atof);
  }

  lemma RunThree(a: string, b: string, c: string, atof: string -> real)
    ensures Run([a, b, c], atof)
         == Record(Record(Record(Begin, 0, a, atof), 1, b, atof), 2, c, atof)
  {
    assert [a, b, c][..2] == [a, b];
    RunTwo(a, b, atof);
  }

  /** `print(n);` scans as a call of `print` with argument `n`. */
  lemma ScanPrint(n: string)
    requires Clean(n)
    ensures Scan(PrintCall(n)) == Fragment("print", "", "", n, false, false, true)
  {
    ScanCall("print", n);
  }

  /** A declaration line changes only the tables. */
  lemma DeclarationLine(st: RunState, i: nat, n: string, t: string, v: string, atof: string -> real)
    requires Clean(n) && n != "" && Clean(t) && t != "" && Clean(v)
    ensures Record(st, i, Declaration(n, t, v), atof)
         == st.(store := DeclareTyped(n, t, v, st.store, atof))
  {
    ScanDeclaration(n, t, v);
  }

  /** Declarations of the three types, each in its own table. */
  lemma IntLine(st: RunState, i: nat, n: string, v: string, atof: string -> real)
    requires Clean(n) && n != "" && Clean(v)
    ensures Record(st, i, Declaration(n, "int", v), atof)
         == st.(store := st.store.(ints := st.store.ints[n := CLib.Atoi(v)]))
  {
    DeclarationLine(st, i, n, "int", v, atof);
  }

  lemma FloatLine(st: RunState, i: nat, n: string, v: string, atof: string -> real)
    requires Clean(n) && n != "" && Clean(v)
    ensures Record(st, i, Declaration(n, "float", v), atof)
         == st.(store := st.store.(floats := st.store.floats[n := atof(v)]))
  {
    DeclarationLine(st, i, n, "float", v, atof);
  }

  lemma DoubleLine(st: RunState, i: nat, n: string, v: string, atof: string -> real)
    requires Clean(n) && n != "" && Clean(v)
    ensures Record(st, i, Declaration(n, "double", v), atof)
         == st.(store := st.store.(doubles := st.store.doubles[n := Naive.Decode(v)]))
  {
    DeclarationLine(st, i, n, "double", v, atof);
  }

  /** An assignment line is `Assign` without a ':'. */
  lemma AssignmentLine(st: RunState, i: nat, n: string, v: string, atof: string -> real)
    requires Clean(n) && n != "" && Clean(v) && v != ""
    ensures Record(st, i, Assignment(n, v), atof) == Apply(st, i, Assign(n, v, false, st.store, atof))
  {
    ScanAssignment(n, v);
  }

  /** A `print` line is `Print`. */
  lemma PrintLine(st: RunState, i: nat, n: string, atof: string -> real)
    requires Clean(n) && n != ""
    ensures Record(st, i, PrintCall(n), atof) == Apply(st, i, Print(n, st.store))
  {
    ScanPrint(n);
  }

  /** An `int` declared with a non-zero value is printed. */
  lemma DeclaredIntIsPrinted(n: string, v: string, atof: string -> real)
    requires Clean(n) && n != "" && Clean(v) && CLib.Atoi(v) != 0
    ensures var st := Run([Declaration(n, "int", v), PrintCall(n)], atof);
      st.errors == map[] && st.written == [Shown(IntValue(CLib.Atoi(v)))]
  {
    var l1, l2 := Declaration(n, "int", v), PrintCall(n);
    var s1 := Begin.(store := Begin.store.(ints := Begin.store.ints[n := CLib.Atoi(v)]));
    assert Record(Begin, 0, l1, atof) == s1 by {
      IntLine(Begin, 0, n, v, atof);
    }
    var o := Print(n, s1.store);
    assert o.printed == Some(IntValue(CLib.Atoi(v))) && o.error == None;
    assert Record(s1, 1, l2, atof) == Apply(s1, 1, o) by {
      PrintLine(s1, 1, n, atof);
    }
    RunTwo(l1, l2, atof);
  }

  /** An `int` declared as zero cannot be told from a missing one: printing
      it records code 3 and prints nothing. */
  lemma ZeroIntIsUndeclared(n: string, v: string, atof: string -> real)
    requires Clean(n) && n != "" && Clean(v) && CLib.Atoi(v) == 0
    ensures var st := Run([Declaration(n, "int", v), PrintCall(n)], atof);
      st.errors == map[1 := Undeclared] && st.written == []
  {
    var l1, l2 := Declaration(n, "int", v), PrintCall(n);
    var s1 := Begin.(store := Begin.store.(ints := Begin.store.ints[n := CLib.Atoi(v)]));
    assert Record(Begin, 0, l1, atof) == s1 by {
      IntLine(Begin, 0, n, v, atof);
    }
    var o := Print(n, s1.store);
    assert o.printed == None && o.error == Some(Undeclared);
    assert Record(s1, 1, l2, atof) == Apply(s1, 1, o) by {
      PrintLine(s1, 1, n, atof);
    }
    RunTwo(l1, l2, atof);
  }

  /** Assigning to a name no table holds records code 1 for line 1 and
      writes the notice for it. */
  lemma AssignToUnknown(n: string, v: string, atof: string -> real)
    requires Clean(n) && n != "" && Clean(v) && v != ""
    ensures var st := Run([Assignment(n, v)], atof);
      st.errors == map[0 := Uninitialized] && st.written == [UninitializedNotice(1)]
  {
    RunOne(Assignment(n, v), atof);
    AssignmentLine(Begin, 0, n, v, atof);
    assert Assign(n, v, false, EmptyStore, atof).error == Some(Uninitialized);
  }

  /** Printing a name that was never declared records code 3. */
  lemma PrintUndeclared(n: string, atof: string -> real)
    requires Clean(n) && n != ""
    ensures var st := Run([PrintCall(n)], atof);
      st.errors == map[0 := Undeclared] && st.written == []
  {
    RunOne(PrintCall(n), atof);
    PrintLine(Begin, 0, n, atof);
    assert Print(n, EmptyStore).error == Some(Undeclared);
  }

  /** A name declared as `int` and then as `double` is still printed from
      the `int` table: the tables are searched in the order int, float,
      double. */
  lemma IntShadowsDouble(n: string, v: string, w: string, atof: string -> real)
    requires Clean(n) && n != "" && Clean(v) && Clean(w) && CLib.Atoi(v) != 0
    ensures var st := Run([Declaration(n, "int", v), Declaration(n, "double", w), PrintCall(n)], atof);
      st.errors == map[] && st.written == [Shown(IntValue(CLib.Atoi(v)))]
  {
    var l1, l2, l3 := Declaration(n, "int", v), Declaration(n, "double", w), PrintCall(n);
    var s1 := Begin.(store := Begin.store.(ints := Begin.store.ints[n := CLib.Atoi(v)]));
    assert Record(Begin, 0, l1, atof) == s1 by {
      IntLine(Begin, 0, n, v, atof);
    }
    var s2 := s1.(store := s1.store.(doubles := s1.store.doubles[n := Naive.Decode(w)]));
    assert Record(s1, 1, l2, atof) == s2 by {
      DoubleLine(s1, 1, n, w, atof);
    }
    var o := Print(n, s2.store);
    assert o.printed == Some(IntValue(CLib.Atoi(v))) && o.error == None;
    assert Record(s2, 2, l3, atof) == Apply(s2, 2, o) by {
      PrintLine(s2, 2, n, atof);
    }
    RunThree(l1, l2, l3, atof);
  }

  /** Assigning to a declared `float` replaces its value. */
  lemma AssignDeclaredFloat(n: string, v: string, w: string, atof: string -> real)
    requires Clean(n) && n != "" && Clean(v) && Clean(w) && w != ""
    requires atof(v) != 0.0 && atof(w) != 0.0
    ensures var st := Run([Declaration(n, "float", v), Assignment(n, w), PrintCall(n)], atof);
      st.errors == map[] && st.written == [Shown(FloatValue(atof(w)))]
  {
    var l1, l2, l3 := Declaration(n, "float", v), Assignment(n, w), PrintCall(n);
    var s1 := Begin.(store := Begin.store.(floats := Begin.store.floats[n := atof(v)]));
    assert Record(Begin, 0, l1, atof) == s1 by {
      FloatLine(Begin, 0, n, v, atof);
    }
    var s2 := s1.(store := Store(map[n := 0], map[n := atof(w)], map[]));
    assert Assign(n, w, false, s1.store, atof) == Outcome(s2.store, None, None);
    assert Record(s1, 1, l2, atof) == s2 by {
      AssignmentLine(s1, 1, n, w, atof);
    }
    var o := Print(n, s2.store);
    assert o.printed == Some(FloatValue(atof(w))) && o.error == None;
    assert Record(s2, 2, l3, atof) == Apply(s2, 2, o) by {
      PrintLine(s2, 2, n, atof);
    }
    RunThree(l1, l2, l3, atof);
  }
}

=== FILE: text.dfy ===
/** Small facts about strings shared by the scanner and the argument
    splitter. */
module Text {

  function Count(s: string, c: char): nat {
    if |s| == 0 then 0
    else Count(s[..|s| - 1], c) + (if s[|s| - 1] == c then 1 else 0)
  }

  function Min(a: nat, b: nat): nat {
    if a <= b then a else b
  }

  /** Index of the first `c` in `p`, or `|p|` when there is none
      (`FirstIsFirst`). */
  function First(p: string, c: char): (k: nat)
    ensures k <= |p|
  {
    if |p| == 0 then 0
    else if p[0] == c then 0
    else 1 + First(p[1..], c)
  }

  /** `First` stops at a `c` and passes over none. */
  lemma {:induction false} FirstIsFirst(p: string, c: char)
    ensures First(p, c) < |p| ==> p[First(p, c)] == c
    ensures forall i :: 0 <= i < First(p, c) ==> p[i] != c
  {
    if |p| > 0 && p[0] != c {
      FirstIsFirst(p[1..], c);
      assert forall i :: 1 <= i < First(p, c) ==> p[i] == p[1..][i - 1];
    }
  }

  /** The only index with the two properties of `FirstIsFirst` is `First`. */
  lemma FirstAt(p: string, c: char, k: nat)
    requires k <= |p| && (k < |p| ==> p[k] == c)
    requires forall i :: 0 <= i < k ==> p[i] != c
    ensures First(p, c) == k
  {
    FirstIsFirst(p, c);
  }

  lemma FirstAppend(p: string, x: char, c: char)
    ensures First(p + [x], c)
         == if First(p, c) < |p| then First(p, c) else if x == c then |p| else |p| + 1
  {
    var q := p + [x];
    var j := First(p, c);
    FirstIsFirst(p, c);
    if j < |p| {
      FirstAt(q, c, j);
    } else if x == c {
      FirstAt(q, c, |p|);
    } else {
      FirstAt(q, c, |p| + 1);
    }
  }

  lemma CountAppend(s: string, x: char, c: char)
    ensures Count(s + [x], c) == Count(s, c) + (if x == c then 1 else 0)
  {
    assert (s + [x])[..|s|] == s;
  }

  /** A character that does not occur is counted zero times. */
  lemma {:induction false} CountAbsent(s: string, c: char)
    requires forall i :: 0 <= i < |s| ==> s[i] != c
    ensures Count(s, c) == 0
  {
    if |s| > 0 {
      CountAbsent(s[..|s| - 1], c);
    }
  }
}
